=== FILE: README.md ===
# Smart Home Simulator — a Dafny model

This project models the core of a small smart-home simulator written in Java.

A **home** holds named **rooms**, and each room holds an ordered list of **smart devices**. There are four kinds of device:
- a **light**, with a brightness from 0 to 100;
- a **thermostat**, with current and target temperatures from 10 to 35, a mode and a task schedule;
- a **smart TV**, with a channel from 1 to 999, a volume from 0 to 100 and a streaming app;
- a **motion sensor**, with a sensitivity from 1 to 10 and a motion flag.

The **central controller** works on the whole home. It can:
- switch every light on;
- total the energy the devices draw;
- find a device by id;
- list the devices of one type;
- broadcast a text command to every device;
- apply energy-saving mode.

An **automation rule** pairs a condition on the home with an action on the home. Rules can be enabled and disabled. The **automation engine** keeps the rules in order and runs one evaluation pass over them.

Modelling choices:
- **Devices as data.** A device is the record `Device(id, name, on, state)`. Its `state` is one of the four variant states. `Light`, `Thermostat`, `SmartTV` and `MotionSensor` are subset types, one per Java class.
- **Operations as pure functions.** Every operation returns the new value. Where the Java code throws, the model returns a `Result`:
  - `DeviceNotFound`, `DuplicateDevice` and `InvalidDeviceState` carry the same meaning as the Java exceptions;
  - `MalformedNumber` stands for the `NumberFormatException` thrown by `Integer.parseInt`.
- **Energy in tenths of a watt.** The Java values are doubles: brightness × 0.1 W for a light, 150/120/50 W for a thermostat, 120/80 W for a TV. The model multiplies them by ten, so every value is an integer. The controller's "over 200 W" rule becomes "over 2000".
- **Commands are already split.** A command arrives as a verb plus an optional argument. The argument carries its text and, if the text parses as an integer, its value.
  - Light and motion sensor lower-case the whole command line before matching, so any argument makes the command unknown.
  - Thermostat and TV lower-case only the first word.
- **Rooms in a home** are a sequence with unique names:
  - adding a room whose name is taken replaces that room in place, as `HashMap.put` does;
  - adding a room with a new name appends it.
- **Rules** hold their condition and action as functions on the home. The Java lambdas in the demo instead capture device objects. Here the demo actions locate their devices by id.

Energy-saving mode calls `setBrightness(30)` on each light that is on, which leaves it on at 30; the model goes through `Lights.SetBrightness` in the same way.

## Model

| member | source | states |
|---|---|---|
| SmartDevice.NewDevice | src/devices/SmartDevice.java:16-20 | a new device is off and keeps the id, name and state it was given |
| Lights.NewLight | src/Devices/Light.java:15-20 | a new light is off, white, in normal mode, at the initial brightness; it is in range exactly when that brightness is within 0..100 |
| Lights.TurnOn | src/Devices/Light.java:23-29 | the light is on; a brightness of 0 becomes 100 and any other brightness is kept; a valid light ends with brightness above 0 |
| Lights.TurnOff | src/Devices/Light.java:32-35 | the light is off and its brightness, colour and mode are kept |
| Lights.SetBrightness | src/Devices/Light.java:52-64 | fails with a brightness-range error exactly when the level is outside 0..100; otherwise the brightness is the level and the light is on exactly when the level is positive |
| Lights.Dim | src/Devices/Light.java:71-75 | at 10 or below nothing changes; between 10 and 110 the brightness drops by 10; above 110 it fails with the range error; a valid light never fails |
| Lights.ExecuteCommand | src/Devices/Light.java:78-92 | "on", "off" and "dim" (in any case) act as TurnOn, TurnOff and Dim; every other line leaves the light unchanged; a valid light never fails |
| Lights.Energy | src/Devices/Light.java:100-103 | an off light draws nothing; an on light draws its brightness in tenths of a watt, which is at most 100 for a light in range |
| Lights.SetBrightnessIdempotent | src/Devices/Light.java:52-64 | setting the same brightness twice equals setting it once |
| Lights.DimSavesEnergy | src/Devices/Light.java:71-75 | dimming a valid light that is on never raises its energy use |
| Thermostats.NewThermostat | src/devices/Thermostat.java:20-26 | a new thermostat is off in auto mode with no tasks, and both temperatures equal the initial one; it is in range exactly when that is within 10..35 |
| Thermostats.TurnOn | src/devices/Thermostat.java:29-32 | the thermostat is on and its settings are unchanged |
| Thermostats.TurnOff | src/devices/Thermostat.java:35-38 | the thermostat is off and its settings are unchanged |
| Thermostats.SetTemperature | src/devices/Thermostat.java:51-60 | fails with a temperature-range error exactly when the target is outside 10..35; otherwise the target is set, and an on thermostat moves its current temperature exactly one degree toward it, never past it |
| Thermostats.Adjust | src/devices/Thermostat.java:62-74 | an on thermostat away from its target moves exactly one degree closer; at the target, or when off, nothing changes |
| Thermostats.RepeatReachesTarget | src/devices/Thermostat.java:51-74 | setting the same target n times moves an on thermostat n degrees closer, and it reaches the target once n covers the distance |
| Thermostats.SetMode | src/devices/Thermostat.java:102-109 | succeeds exactly for heat, cool and auto, setting that mode; any other mode fails with an unknown-mode error |
| Thermostats.Energy | src/devices/Thermostat.java:112-120 | off draws 0; at the target draws 500; away from the target draws 1500 when heating and 1200 otherwise |
| Thermostats.ScheduleTask | src/devices/Thermostat.java:128-131 | the schedule maps the time to the action, adds only that key, and keeps every other entry |
| Thermostats.CancelScheduledTask | src/devices/Thermostat.java:134-137 | the key is gone from the schedule and the other entries are kept; cancelling a missing key changes nothing |
| Thermostats.ScheduleThenCancel | src/devices/Thermostat.java:128-137 | cancelling a task just scheduled at a free time gives back the original thermostat |
| Thermostats.ExecuteCommand | src/devices/Thermostat.java:77-99 | on, off, settemp N and setmode M act as the matching operations; a settemp argument that is not an integer fails with a malformed-number error; a verb without its argument, or an unknown verb, changes nothing |
| SmartTVs.NewTV | src/devices/SmartTV.java:16-22 | a new TV is off on channel 1 at volume 50, not streaming, with app "none" |
| SmartTVs.TurnOn | src/devices/SmartTV.java:25-28 | the TV is on and its settings are unchanged |
| SmartTVs.TurnOff | src/devices/SmartTV.java:31-35 | the TV is off and not streaming; its channel, volume and app are kept |
| SmartTVs.ChangeChannel | src/devices/SmartTV.java:51-61 | succeeds exactly when the TV is on and the channel is within 1..999; the two failures carry different reasons; success sets the channel and stops streaming |
| SmartTVs.AdjustVolume | src/devices/SmartTV.java:63-71 | fails exactly when the TV is off; otherwise the volume becomes the old volume plus the change, clamped to 0..100 |
| SmartTVs.AdjustVolumeAsWritten | src/devices/SmartTV.java:63-71 | the Java addition on 32-bit ints: it agrees with AdjustVolume whenever the sum fits in 32 bits |
| SmartTVs.AdjustVolumeOverflow | src/devices/SmartTV.java:67-69 | at volume 50 a change of 2147483647 leaves the 32-bit version at 0, where the clamped sum is 100 |
| SmartTVs.StartStreaming | src/devices/SmartTV.java:73-80 | fails exactly when the TV is off; otherwise the TV streams the given app with its channel and volume kept and stays in range |
| SmartTVs.StopStreaming | src/devices/SmartTV.java:82-86 | the TV is not streaming and its app is "none"; power, channel and volume are kept, and it stays in range |
| SmartTVs.StopAfterStart | src/devices/SmartTV.java:73-86 | on a TV that is on, streaming an app and then stopping ends where stopping alone does |
| SmartTVs.SetMode | src/devices/SmartTV.java:120-122 | setting a mode changes nothing in the TV |
| SmartTVs.Energy | src/devices/SmartTV.java:125-128 | off draws 0; on draws 1200 while streaming and 800 otherwise |
| SmartTVs.ExecuteCommand | src/devices/SmartTV.java:89-117 | on, off, channel N, volumeup, volumedown and stream APP act as the matching operations, with volume steps of ±10; a channel argument that is not an integer fails with a malformed-number error; a verb without its argument, or an unknown verb, changes nothing |
| SmartTVs.VolumeUpDownRoundTrip | src/devices/SmartTV.java:103-108 | away from the limits, volume up then down (and down then up) restores the TV |
| MotionSensors.NewSensor | src/Devices/MotionSensor.java:13-18 | a new sensor is off, sees no motion, and has sensitivity 5 |
| MotionSensors.TurnOn | src/Devices/MotionSensor.java:21-24 | the sensor is on and its state is unchanged |
| MotionSensors.TurnOff | src/Devices/MotionSensor.java:27-31 | the sensor is off, its motion flag is cleared, and its sensitivity is kept |
| MotionSensors.DetectMotion | src/Devices/MotionSensor.java:42-50 | an on sensor records motion; an off sensor is unchanged |
| MotionSensors.ClearMotion | src/Devices/MotionSensor.java:52-55 | the motion flag is cleared and nothing else changes |
| MotionSensors.SetSensitivity | src/Devices/MotionSensor.java:57-64 | a level within 1..10 becomes the sensitivity; any other level changes nothing |
| MotionSensors.SetMode | src/Devices/MotionSensor.java:87-89 | setting a mode changes nothing in the sensor |
| MotionSensors.ExecuteCommand | src/Devices/MotionSensor.java:67-84 | "on", "off", "detect" and "clear" act as the matching operations; every other line changes nothing; the sensitivity is always kept |
| MotionSensors.IsMotionDetected | src/Devices/MotionSensor.java:92-94 | motion is reported only by a sensor that is on, and then exactly when its motion flag is set |
| MotionSensors.OffSensorReportsNothing | src/Devices/MotionSensor.java:92-94 | a sensor that is off, or just cleared, never reports motion, even after a detect |
| Devices.TurnOn | src/devices/SmartDevice.java:25 | any device can be switched on; it keeps its id, name and kind, and stays in range |
| Devices.TurnOff | src/devices/SmartDevice.java:30 | any device can be switched off; it keeps its id, name and kind, and stays in range |
| Devices.TurnOffIdempotent | src/devices/SmartDevice.java:30 | switching off twice equals switching off once |
| Devices.TurnOnIdempotent | src/devices/SmartDevice.java:25 | switching on twice equals switching on once |
| Devices.Energy | src/interfaces/EnergyConsumer.java:11 | only energy consumers (every kind except the sensor) are asked; an off device draws 0, and a device in range draws at most 1500 |
| Devices.ExecuteCommand | src/interfaces/Controllable.java:11 | a bare "on"/"off" switches any device; success keeps the device's identity and range; sensors, and lights in range, never fail |
| Rooms.IndexOf | src/Structure/Room.java:69-76 | the position of the first device with the id, or the length when none has it |
| Rooms.AddDevice | src/Structure/Room.java:28-39 | fails with a duplicate-device error exactly when the id is present; otherwise the device is appended and ids stay unique |
| Rooms.RemoveDevice | src/Structure/Room.java:46-61 | fails with a not-found error exactly when the id is absent; otherwise exactly one device with that id goes |
| Rooms.FindDeviceById | src/Structure/Room.java:69-76 | finds a device exactly when one has the id, and the result has that id |
| Rooms.AddThenRemove | src/Structure/Room.java:28-61 | removing a device just added gives back the original room |
| Rooms.FindAfterAdd | src/Structure/Room.java:28-76 | a device just added is found by its id |
| Rooms.DevicesByType | src/Structure/Room.java:83-89 | exactly the room's devices of the given kind |
| Rooms.TurnOffAllDevices | src/Structure/Room.java:93-98 | every device is off with its identity kept; unique ids and ranges are kept |
| Rooms.TurnOnAllDevices | src/Structure/Room.java:103-108 | every device is on with its identity kept; unique ids and ranges are kept |
| Rooms.TurnAllIdempotent | src/Structure/Room.java:93-108 | switching a whole room off (or on) twice equals doing it once |
| Homes.AddRoom | src/Structure/Home.java:26-29 | looking up the room's name now gives the room; every other name gives what it gave before; room names stay unique |
| Homes.RemoveRoom | src/Structure/Home.java:35-42 | looking up the removed name gives nothing; exactly the other rooms remain, in order; room names stay unique and the home stays valid; a present name removes exactly one room; removing a missing name changes nothing |
| Homes.WithoutRoomConcat | src/Structure/Home.java:35-42 | removal works piece by piece, so the surviving rooms keep their order |
| Homes.RemoveRoomKeepsOthers | src/Structure/Home.java:35-42 | removing one room leaves every other name's lookup as it was |
| Homes.GetRoom | src/Structure/Home.java:49-51 | finds a room exactly when one has the name, and returns a room of the home with that name |
| Homes.Flatten | src/Structure/Home.java:57-63 | the home's device list is as long as the sum of the room sizes, and holds exactly the devices of the rooms |
| Homes.FindDevice | src/Structure/Home.java:71-80 | finds a device exactly when some room holds one with the id; the result is the first such device in room order; otherwise a not-found error |
| Homes.FlattenMapRooms | src/Structure/Home.java:57-63 | changing every device room by room gives the same device list as changing the flattened list |
| Homes.TurnOffEverything | src/Structure/Home.java:85-90 | every room is switched off, so no device of the home is on; the number of devices and the home's validity are kept |
| Controller.TurnOnAllLights | src/Controller/CentralController.java:32-45 | the count is the number of lights; every light is on and every other device is unchanged |
| Controller.TotalEnergyConsumption | src/Controller/CentralController.java:58-69 | the loop's total equals the sum of the energy of every consumer in the home |
| Controller.SensorsAddNothing | src/Controller/CentralController.java:62-66 | leaving out the devices that are not energy consumers does not change the total |
| Controller.SumEnergyBounds | src/Controller/CentralController.java:58-69 | with every device off the total is 0; with every device in range it is at most 1500 per device |
| Controller.TurnOffEverythingSavesAll | src/Structure/Home.java:85-90 | after switching everything off, the total energy is 0 |
| Controller.FindDevice | src/Controller/CentralController.java:91-93 | delegates to the home's lookup; a device is found exactly when the home holds its id |
| Controller.ListDevicesByType | src/Controller/CentralController.java:99-114 | exactly the home's devices whose class name equals the type name, ignoring case |
| Controller.KindNamesDistinct | src/Controller/CentralController.java:105 | a device's class name matches a kind's name, ignoring case, exactly when the device is of that kind |
| Controller.ListByKind | src/Controller/CentralController.java:99-114 | listing a kind across the home gives, in order, each room's DevicesByType result |
| Controller.FilterKindByRoom | src/Controller/CentralController.java:99-114 | selecting one kind from the whole home equals selecting it room by room and joining the rooms' results in room order |
| Controller.ListIgnoresCase | src/Controller/CentralController.java:105 | a lower-case type name lists the same devices as the original |
| Controller.ApplyAllStopsAtFirstFailure | src/Controller/CentralController.java:120-129 | devices before the first failing one take the command's result; that device and later ones are unchanged; the failure reported is that device's error |
| Controller.ApplyRooms | src/Controller/CentralController.java:120-129 | broadcasting room by room gives the same devices and failure as broadcasting over the flattened list, and each room keeps its name and, place by place, devices of the same identity |
| Controller.ExecuteGlobalCommand | src/Controller/CentralController.java:120-129 | the home's devices are the broadcast's result; every room keeps its name and, place by place, a device of the same identity, so a valid home stays valid; with no failure every device took the command, otherwise the reported error is some device's |
| Controller.GlobalOffSwitchesAllOff | src/Controller/CentralController.java:120-129 | a global "off" never fails and leaves every device off |
| Controller.EnergySavingMode | src/Controller/CentralController.java:134-150 | every light that is on goes to brightness 30; every TV is off; every other device is unchanged; identities and validity are kept |
| Controller.EnergySavingBound | src/Controller/CentralController.java:134-150 | after energy-saving mode the home draws at most 3 W per light and 150 W per thermostat, and nothing for TVs and sensors, whatever it drew before, even with devices built out of range |
| AutomationRules.NewRule | src/Automation/AutomationRule.java:20-25 | a new rule is enabled and holds the given name, condition and action |
| AutomationRules.Evaluate | src/Automation/AutomationRule.java:31-33 | a disabled rule never holds; an enabled rule holds exactly when its condition does |
| AutomationRules.ExecuteIfTrue | src/Automation/AutomationRule.java:39-45 | the rule fires exactly when it is enabled and its condition holds; firing gives the action's home, and otherwise the home is unchanged |
| AutomationRules.Enable | src/Automation/AutomationRule.java:50-53 | the rule is enabled and nothing else changes |
| AutomationRules.Disable | src/Automation/AutomationRule.java:58-61 | the rule is disabled and nothing else changes |
| AutomationRules.DisabledNeverFires | src/Automation/AutomationRule.java:31-45 | a disabled rule evaluates false and leaves the home unchanged |
| AutomationRules.EnableDisableIdempotent | src/Automation/AutomationRule.java:50-61 | enabling (or disabling) twice is once, and the last switch wins |
| AutomationEngine.AddRule | src/Automation/AutomationEngine.java:21-24 | the rule is appended after the existing ones |
| AutomationEngine.RemoveRule | src/Automation/AutomationEngine.java:30-33 | exactly the rules with other names remain; removing a missing name changes nothing |
| AutomationEngine.RemoveRuleConcat | src/Automation/AutomationEngine.java:30-33 | removal works piece by piece, so the surviving rules keep their order and their duplicates |
| AutomationEngine.RemoveAfterAdd | src/Automation/AutomationEngine.java:21-33 | removing a rule just added under a fresh name gives back the original list |
| AutomationEngine.RuleIndex | src/Automation/AutomationEngine.java:72-80 | the position of the first rule with the name, or the length when none has it |
| AutomationEngine.EnableRule | src/Automation/AutomationEngine.java:72-80 | only the first rule with the name is enabled, every other rule is unchanged; a missing name changes nothing |
| AutomationEngine.DisableRule | src/Automation/AutomationEngine.java:86-94 | only the first rule with the name is disabled, every other rule is unchanged; a missing name changes nothing |
| AutomationEngine.EnableAfterDisable | src/Automation/AutomationEngine.java:72-94 | enabling after disabling is the same as just enabling |
| AutomationEngine.EvaluatePass | src/Automation/AutomationEngine.java:38-45 | at most one execution per rule; with every rule disabled nothing fires and the home is unchanged |
| AutomationEngine.PassConcat | src/Automation/AutomationEngine.java:41-45 | a pass over two lists of rules is a pass over the first, then over the second from the home it left |
| AutomationEngine.PassStep | src/Automation/AutomationEngine.java:41-45 | each rule sees the home left by the rules before it, and counts one when it fires |
| AutomationEngine.DisabledRuleLeavesNoTrace | src/Automation/AutomationEngine.java:41-45 | a disabled rule changes neither the home nor the count |
| AutomationEngine.EvaluateRules | src/Automation/AutomationEngine.java:38-52 | the loop returns the same home and count as the pass |
| DemoRules.StartupDrawsNothing | src/Main.java:17-47 | the home the start-up code builds is well formed, every device is in range and off, and it draws 0 W |
| DemoRules.StartupPassFiresNothing | src/Main.java:60-79 | on the start-up home neither rule fires, in either order: the sensor is off and the load is 0 W |
| DemoRules.ScenarioReachable | src/Main.java:26-31 | the example's thermostat, TV and sensor are the start-up devices after setTemperature(24) and turnOn, turnOn, and turnOn and detectMotion |
| DemoRules.ScenarioValid | src/Main.java:71-79 | the example home (start-up home after those calls) is well formed, in range, and draws exactly 200 W, where the saving rule's strict "more than 200 W" does not yet hold |
| DemoRules.MotionThenSaving | src/Main.java:60-79 | from the example home, with the motion rule first, both rules fire: the living-room light ends on at 30 and the TV off |
| DemoRules.SavingThenMotion | src/Main.java:60-79 | from the example home, with the saving rule first, only the motion rule fires, because the load reaches 207.5 W only after it |

## Left out

- Console output: every `System.out.println` is left out, along with `getStatus`, `toString`, `showAllDevices`, `showAllRooms` and `listRules`. Nothing the model keeps depends on the text they print.
- `getEnergyEfficiencyRating`, and Light's `setColor` and `setMode`, are left out. No other operation reads the letter grade, the colour or the light mode.
- The motion sensor's `lastDetectionTime` is left out: it reads the clock, and nothing ever reads the value back.
- Energy is kept in exact integer tenths of a watt instead of Java doubles. Every source value is a multiple of 0.1 W, but `brightness * 0.1` and the sums of doubles round. A total within rounding error of the 200 W threshold could compare differently in Java.
- The splitting of a command string on spaces and the parsing of its integer are left out: the model receives the command already split. Runs of spaces, and words after the second, are not modelled. Nor is the exception path for a command made only of spaces: `split(" ")` then returns an empty array and `parts[0]` throws `ArrayIndexOutOfBoundsException` in the thermostat and the TV, which through the global command would abort the broadcast at the first thermostat or TV; `Command` cannot represent that input.
- The example home of the worked rule-order lemmas is reachable from the start-up home through public operations, but not through the simulator's console menu: no menu option switches the motion sensor on, so in the running program `detectMotion` is always ignored and the motion rule never fires.
- Case folding covers ASCII letters only. Java's `toLowerCase` and `equalsIgnoreCase` also fold other scripts.
- `Homes.FindDevice`, `Homes.Flatten`, `Controller.ListDevicesByType`, `Controller.ApplyAllStopsAtFirstFailure` and `Controller.ExecuteGlobalCommand`: the Java home keeps its rooms in a `HashMap`, whose iteration order is not specified. The model uses the order in which rooms were added. That one order decides which device is the "first match", the order of the device list and of a type listing, and which devices a global command has already changed when it stops at the first failure; Java promises none of these orders.
- `Rooms.DevicesByType`: its contract states membership only. The order of the result is stated by `Controller.ListByKind` and `Controller.FilterKindByRoom`, through `Rooms.FilterConcat`.
- Rule conditions and actions are total functions on the home. An exception thrown inside a Java action would abort the whole pass; neither demo action can throw.
- The Java demo lambdas capture device objects and mutate them through shared references. The model locates the demo's devices by id instead.
- `Controller.ExecuteGlobalCommand`, `Controller.EnergySavingMode`, `AutomationEngine.EnableRule`, `AutomationEngine.DisableRule`: every list entry is an independent value, so an object reachable twice is modelled as two copies. Java lets one `Light` sit in two rooms, since `addDevice` checks identifiers only within its room; a global command or the saving mode then acts twice on that one object. Java also lets `addRule` add one rule object twice, and disabling it then silences both entries, where the model disables only the first.
- Constructors do not range-check their arguments, so a light or thermostat can start out of range. `Valid` states the ranges, and each operation's contract says that it preserves them.
- The source never range-checks the thermostat's current temperature. The model's `Valid` bounds it to 10..35, and `Thermostats.Adjust` keeps it in that range.
- The rest of `Main.java` (the console menu and the scripted demo beyond the two rules) is not part of this model.

## Findings

| source | as written | input that shows it | evidently intended | confidence | as-written member | corrected member |
|---|---|---|---|---|---|---|
| src/devices/SmartTV.java:67-69 | `volume += change` is a 32-bit int addition, done before the clamp to 0..100 | an on TV at volume 50, change 2147483647 (`Integer.MAX_VALUE`): the sum wraps to a negative number and clamps to 0 | the sum clamped to 100 | not executed; high — every other input in range behaves as intended | SmartTVs.AdjustVolumeAsWritten | SmartTVs.AdjustVolume |

=== FILE: automation_engine.dfy ===
/** AutomationEngine: an ordered list of rules evaluated in one pass.

    A pass visits every rule once, in list order, and each rule's condition
    sees the home as the earlier rules' actions left it: order matters. */
module AutomationEngine {
  import opened Homes
  import opened AutomationRules

  predicate Named(rules: seq<Rule>, name: string) {
    exists i :: 0 <= i < |rules| && rules[i].name == name
  }

  /** `addRule` appends the rule at the end. */
  function AddRule(rules: seq<Rule>, rule: Rule): (r: seq<Rule>)
    ensures |r| == |rules| + 1
    ensures r[..|rules|] == rules && r[|rules|] == rule
  {
    rules + [rule]
  }

  /** `removeRule` drops every rule with the name and keeps the others in
      their order. */
  function RemoveRule(rules: seq<Rule>, name: string): (r: seq<Rule>)
    ensures !Named(r, name)
    ensures forall x :: x in r <==> x in rules && x.name != name
    ensures !Named(rules, name) ==> r == rules
    ensures |r| <= |rules|
  {
    if |rules| == 0 then []
    else (if rules[0].name == name then [] else [rules[0]]) + RemoveRule(rules[1..], name)
  }

  /** Removing by name distributes over concatenation: the surviving rules
      keep their relative order, duplicates included. */
  lemma {:induction false} RemoveRuleConcat(a: seq<Rule>, b: seq<Rule>, name: string)
    ensures RemoveRule(a + b, name) == RemoveRule(a, name) + RemoveRule(b, name)
  {
    if |a| > 0 {
      assert (a + b)[0] == a[0] && (a + b)[1..] == a[1..] + b;
      RemoveRuleConcat(a[1..], b, name);
      if a[0].name == name {
        assert RemoveRule(a + b, name) == RemoveRule(a[1..] + b, name);
      } else {
        assert RemoveRule(a + b, name) == [a[0]] + RemoveRule(a[1..] + b, name);
      }
    } else {
      assert a + b == b;
    }
  }

  /** Removing a rule just added under a fresh name restores the list. */
  lemma RemoveAfterAdd(rules: seq<Rule>, rule: Rule)
    requires !Named(rules, rule.name)
    ensures RemoveRule(AddRule(rules, rule), rule.name) == rules
  {
    RemoveRuleConcat(rules, [rule], rule.name);
    assert [rule][1..] == [];
  }

  /** Position of the first rule with the name, or `|rules|`. */
  function RuleIndex(rules: seq<Rule>, name: string): (k: nat)
    ensures k <= |rules|
    ensures k < |rules| ==> rules[k].name == name
    ensures forall i :: 0 <= i < k ==> rules[i].name != name
  {
    if |rules| == 0 then 0
    else if rules[0].name == name then 0
    else 1 + RuleIndex(rules[1..], name)
  }

  /** `enableRule`: only the first rule with the name is enabled; an absent
      name is reported and changes nothing. */
  function EnableRule(rules: seq<Rule>, name: string): (r: seq<Rule>)
    ensures |r| == |rules|
    ensures !Named(rules, name) ==> r == rules
    ensures Named(rules, name) ==>
      var k := RuleIndex(rules, name);
      r[k] == Enable(rules[k]) && forall i :: 0 <= i < |rules| && i != k ==> r[i] == rules[i]
  {
    var k := RuleIndex(rules, name);
    if k < |rules| then rules[k := Enable(rules[k])] else rules
  }

  /** `disableRule`: only the first rule with the name is disabled; an
      absent name is reported and changes nothing. */
  function DisableRule(rules: seq<Rule>, name: string): (r: seq<Rule>)
    ensures |r| == |rules|
    ensures !Named(rules, name) ==> r == rules
    ensures Named(rules, name) ==>
      var k := RuleIndex(rules, name);
      r[k] == Disable(rules[k]) && forall i :: 0 <= i < |rules| && i != k ==> r[i] == rules[i]
  {
    var k := RuleIndex(rules, name);
    if k < |rules| then rules[k := Disable(rules[k])] else rules
  }

  /** Disabling and then enabling a name is enabling it. */
  lemma EnableAfterDisable(rules: seq<Rule>, name: string)
    ensures EnableRule(DisableRule(rules, name), name) == EnableRule(rules, name)
  {
    var k := RuleIndex(rules, name);
    if k < |rules| {
      assert forall i :: 0 <= i < |rules| ==> DisableRule(rules, name)[i].name == rules[i].name;
      assert RuleIndex(DisableRule(rules, name), name) == k;
    }
  }

  datatype Pass = Pass(home: Home, executed: nat)

  /** One evaluation pass as a left fold: the first rule sees `h`, each
      later rule sees what the earlier ones left, and `executed` counts the
      rules that fired. */
  function EvaluatePass(rules: seq<Rule>, h: Home): (p: Pass)
    ensures p.executed <= |rules|
    ensures (forall i :: 0 <= i < |rules| ==> !rules[i].enabled) ==> p == Pass(h, 0)
    decreases |rules|
  {
    if |rules| == 0 then Pass(h, 0)
    else
      var first := ExecuteIfTrue(rules[0], h);
      var rest := EvaluatePass(rules[1..], first.home);
      Pass(rest.home, rest.executed + if first.fired then 1 else 0)
  }

  /** A pass over two lists one after another is the pass over the first
      followed by the pass over the second from where the first left off. */
  lemma {:induction false} PassConcat(a: seq<Rule>, b: seq<Rule>, h: Home)
    ensures EvaluatePass(a + b, h) ==
      Pass(EvaluatePass(b, EvaluatePass(a, h).home).home,
           EvaluatePass(a, h).executed + EvaluatePass(b, EvaluatePass(a, h).home).executed)
    decreases |a|
  {
    if |a| == 0 {
      assert a + b == b;
    } else {
      assert (a + b)[1..] == a[1..] + b;
      assert (a + b)[0] == a[0];
      PassConcat(a[1..], b, ExecuteIfTrue(a[0], h).home);
    }
  }

  /** Each rule of a pass is evaluated, once, against the home the earlier
      rules left; it adds one to the count exactly when it fires. */
  lemma PassStep(rules: seq<Rule>, h: Home, i: nat)
    requires i < |rules|
    ensures var before := EvaluatePass(rules[..i], h);
      var f := ExecuteIfTrue(rules[i], before.home);
      EvaluatePass(rules[..i + 1], h) ==
        Pass(f.home, before.executed + if f.fired then 1 else 0)
  {
    assert rules[..i + 1] == rules[..i] + [rules[i]];
    PassConcat(rules[..i], [rules[i]], h);
    assert [rules[i]][1..] == [];
  }

  /** A disabled rule in the middle of a pass leaves no trace: the home after
      it is the home before it and the count does not move. */
  lemma DisabledRuleLeavesNoTrace(rules: seq<Rule>, h: Home, i: nat)
    requires i < |rules| && !rules[i].enabled
    ensures EvaluatePass(rules[..i + 1], h) == EvaluatePass(rules[..i], h)
  {
    PassStep(rules, h, i);
  }

  /** `evaluateRules`: the loop of the source, one `executeIfTrue` per rule
      in list order, counting the rules that fired. */
  method EvaluateRules(rules: seq<Rule>, h: Home) returns (home: Home, executed: nat)
    ensures Pass(home, executed) == EvaluatePass(rules, h)
    ensures executed <= |rules|
  {
    home := h;
    executed := 0;
    var i := 0;
    while i < |rules|
      invariant 0 <= i <= |rules|
      invariant Pass(home, executed) == EvaluatePass(rules[..i], h)
    {
      PassStep(rules, h, i);
      var f := ExecuteIfTrue(rules[i], home);
      home := f.home;
      if f.fired {
        executed := executed + 1;
      }
      i := i + 1;
    }
    assert rules[..i] == rules;
  }
}

=== FILE: automation_rule.dfy ===
/** AutomationRule: a named condition/action pair with an enabled flag.

    The source's rules capture device and controller references in lambdas;
    here the condition reads the whole home and the action returns the home
    it leaves behind, so every dependency of a rule is on its arguments. */
module AutomationRules {
  import opened Homes

  datatype Rule = Rule(name: string, enabled: bool, condition: Home -> bool, action: Home -> Home)

  /** A new rule is enabled and keeps the name, condition and action given. */
  function NewRule(name: string, condition: Home -> bool, action: Home -> Home): (r: Rule)
    ensures r.enabled
    ensures r.name == name && r.condition == condition && r.action == action
  {
    Rule(name, true, condition, action)
  }

  /** `evaluate`: the rule holds when it is enabled and its condition does. */
  function Evaluate(rule: Rule, h: Home): (holds: bool)
    ensures holds ==> rule.enabled
    ensures rule.enabled ==> (holds <==> rule.condition(h))
  {
    rule.enabled && rule.condition(h)
  }

  datatype Firing = Firing(home: Home, fired: bool)

  /** `executeIfTrue`: when the rule holds its action runs once and the rule
      reports that it fired; otherwise the home is untouched. */
  function ExecuteIfTrue(rule: Rule, h: Home): (f: Firing)
    ensures f.fired <==> rule.enabled && rule.condition(h)
    ensures f.fired ==> f.home == rule.action(h)
    ensures !f.fired ==> f.home == h
  {
    if Evaluate(rule, h) then Firing(rule.action(h), true) else Firing(h, false)
  }

  /** `enable` sets the flag whatever it was. */
  function Enable(rule: Rule): (r: Rule)
    ensures r.enabled
    ensures r.name == rule.name && r.condition == rule.condition && r.action == rule.action
  {
    rule.(enabled := true)
  }

  /** `disable` clears the flag whatever it was. */
  function Disable(rule: Rule): (r: Rule)
    ensures !r.enabled
    ensures r.name == rule.name && r.condition == rule.condition && r.action == rule.action
  {
    rule.(enabled := false)
  }

  /** A disabled rule never fires and never touches the home. */
  lemma DisabledNeverFires(rule: Rule, h: Home)
    requires !rule.enabled
    ensures !Evaluate(rule, h)
    ensures ExecuteIfTrue(rule, h) == Firing(h, false)
  {
  }

  /** Enabling and disabling are idempotent, and each undoes the other. */
  lemma EnableDisableIdempotent(rule: Rule)
    ensures Enable(Enable(rule)) == Enable(rule)
    ensures Disable(Disable(rule)) == Disable(rule)
    ensures Enable(Disable(rule)) == Enable(rule)
    ensures Disable(Enable(rule)) == Disable(rule)
  {
  }
}

=== FILE: commands.dfy ===
/** Device commands after tokenisation.

    A command line is split at its first space into a verb and, when present,
    the second word. The argument carries its text and, when the text is a
    decimal integer, the value `Integer.parseInt` would return. */
module Commands {
  import opened Results
  import Text

  /** `number` is a cache of parsing `text`: whoever builds an argument
      keeps the two consistent, since no command line yields `Arg("7", Some(9))`. */
  datatype Arg = Arg(text: string, number: Option<int>)

  datatype Command = Command(verb: string, arg: Option<Arg>)

  /** The match used by Light and MotionSensor: the WHOLE line, lower-cased,
      equals `word`; a line with an argument never matches. */
  predicate IsWord(c: Command, word: string) {
    c.arg.None? && Text.Lower(c.verb) == word
  }

  /** The match used by Thermostat and SmartTV: the first word, lower-cased,
      equals `word`; any argument is ignored by the match. */
  predicate HasVerb(c: Command, word: string) {
    Text.Lower(c.verb) == word
  }

  /** A bare command word such as "on" or "off". */
  function Bare(word: string): Command
  {
    Command(word, None)
  }
}

=== FILE: controller.dfy ===
/** CentralController: home-wide operations over the flattened device list
    (`AllDevices`). The controller holds no state of its own, so every
    operation here takes the home and returns the home it leaves behind. */
module Controller {
  import opened Results
  import opened SmartDevice
  import opened Commands
  import opened Rooms
  import opened Homes
  import Devices
  import Lights
  import SmartTVs
  import Text

  predicate IsLight(d: Device) {
    d.state.LightState?
  }

  predicate IsTV(d: Device) {
    d.state.TVState?
  }

  /** The per-device step of `turnOnAllLights`. */
  function LightOn(d: Device): Device {
    if IsLight(d) then Devices.TurnOn(d) else d
  }

  datatype Switched = Switched(home: Home, count: nat)

  /** `turnOnAllLights`: every light is switched on, every other device is
      left as it was, and the count reported is the number of lights. */
  function TurnOnAllLights(h: Home): (r: Switched)
    ensures r.home.name == h.name
    ensures r.count == |Filter(AllDevices(h), IsLight)|
    ensures |AllDevices(r.home)| == |AllDevices(h)|
    ensures forall i :: 0 <= i < |AllDevices(h)| && IsLight(AllDevices(h)[i]) ==>
      AllDevices(r.home)[i] == Lights.TurnOn(AllDevices(h)[i]) && AllDevices(r.home)[i].on
    ensures forall i :: 0 <= i < |AllDevices(h)| && !IsLight(AllDevices(h)[i]) ==>
      AllDevices(r.home)[i] == AllDevices(h)[i]
    ensures Homes.Valid(h) ==> Homes.Valid(r.home)
  {
    FlattenMapRooms(h.rooms, LightOn);
    Switched(h.(rooms := MapRooms(h.rooms, LightOn)), |Filter(AllDevices(h), IsLight)|)
  }

  /** What one device adds to the total: its consumption if it is an
      `EnergyConsumer`, nothing otherwise. */
  function Contribution(d: Device): int {
    if d.IsEnergyConsumer() then Devices.Energy(d) else 0
  }

  /** The reference sum of contributions. */
  function SumEnergy(ds: seq<Device>): int {
    if |ds| == 0 then 0 else Contribution(ds[0]) + SumEnergy(ds[1..])
  }

  lemma {:induction false} SumEnergyConcat(a: seq<Device>, b: seq<Device>)
    ensures SumEnergy(a + b) == SumEnergy(a) + SumEnergy(b)
  {
    if |a| == 0 {
      assert a + b == b;
    } else {
      assert (a + b)[1..] == a[1..] + b;
      SumEnergyConcat(a[1..], b);
    }
  }

  /** `getTotalEnergyConsumption`, in tenths of a watt: the loop of the
      source, which adds up the contributions in device order. */
  method TotalEnergyConsumption(h: Home) returns (total: int)
    ensures total == SumEnergy(AllDevices(h))
  {
    var ds := AllDevices(h);
    total := 0;
    var i := 0;
    while i < |ds|
      invariant 0 <= i <= |ds|
      invariant total == SumEnergy(ds[..i])
    {
      SumEnergyConcat(ds[..i], [ds[i]]);
      assert ds[..i + 1] == ds[..i] + [ds[i]];
      total := total + Contribution(ds[i]);
      i := i + 1;
    }
    assert ds[..i] == ds;
  }

  /** Motion sensors add nothing: the total over all devices equals the
      total over the energy consumers alone. */
  lemma {:induction false} SensorsAddNothing(ds: seq<Device>)
    ensures SumEnergy(ds) == SumEnergy(Filter(ds, (d: Device) => d.IsEnergyConsumer()))
  {
    if |ds| > 0 {
      var p := (d: Device) => d.IsEnergyConsumer();
      SensorsAddNothing(ds[1..]);
      SumEnergyConcat(if p(ds[0]) then [ds[0]] else [], Filter(ds[1..], p));
    }
  }

  /** With every device off the home draws nothing; with every field in
      range no device draws more than 150 W. */
  lemma {:induction false} SumEnergyBounds(ds: seq<Device>)
    ensures (forall i :: 0 <= i < |ds| ==> !ds[i].on) ==> SumEnergy(ds) == 0
    ensures AllValid(ds) ==> 0 <= SumEnergy(ds) <= 1500 * |ds|
  {
    if |ds| > 0 {
      SumEnergyBounds(ds[1..]);
    }
  }

  /** After `turnOffEverything` the total is zero. */
  lemma TurnOffEverythingSavesAll(h: Home)
    ensures SumEnergy(AllDevices(TurnOffEverything(h))) == 0
  {
    SumEnergyBounds(AllDevices(TurnOffEverything(h)));
  }

  /** `findDevice` hands the search to the home. */
  function FindDevice(h: Home, id: string): (r: Result<Device>)
    ensures r == Homes.FindDevice(h, id)
    ensures r.Ok? <==> HasId(AllDevices(h), id)
  {
    Homes.FindDevice(h, id)
  }

  /** `listDevicesByType`: the devices whose class name equals the given
      name without regard to case, in `AllDevices` order. */
  function ListDevicesByType(h: Home, typeName: string): (r: seq<Device>)
    ensures forall d :: d in r <==> d in AllDevices(h) && Text.EqualsIgnoreCase(d.TypeName(), typeName)
  {
    Filter(AllDevices(h), (d: Device) => Text.EqualsIgnoreCase(d.TypeName(), typeName))
  }

  lemma {:induction false} FilterSame(ds: seq<Device>, p: Device -> bool, q: Device -> bool)
    requires forall d :: p(d) == q(d)
    ensures Filter(ds, p) == Filter(ds, q)
  {
    if |ds| > 0 {
      FilterSame(ds[1..], p, q);
    }
  }

  /** The four class names differ even when case is ignored. */
  lemma KindNamesDistinct(d: Device, k: Kind)
    ensures Text.EqualsIgnoreCase(d.TypeName(), KindName(k)) <==> d.Kind() == k
  {
    if d.Kind() != k {
      assert |Text.Lower(d.TypeName())| != |Text.Lower(KindName(k))|;
    }
  }

  /** Listing by a class's own name selects exactly that class, in the same
      order as each room's `getDevicesByType`, room after room. */
  lemma ListByKind(rs: seq<Room>, k: Kind)
    ensures Filter(Flatten(rs), (d: Device) => Text.EqualsIgnoreCase(d.TypeName(), KindName(k)))
         == Flatten(seq(|rs|, i requires 0 <= i < |rs| => Room(rs[i].name, DevicesByType(rs[i], k))))
  {
    var p := (d: Device) => Text.EqualsIgnoreCase(d.TypeName(), KindName(k));
    var q := (d: Device) => d.Kind() == k;
    forall d ensures p(d) == q(d) {
      KindNamesDistinct(d, k);
    }
    FilterSame(Flatten(rs), p, q);
    FilterKindByRoom(rs, k);
  }

  /** Selecting one kind from the flattened home is selecting it room by
      room and flattening the results. */
  lemma {:induction false} FilterKindByRoom(rs: seq<Room>, k: Kind)
    ensures Filter(Flatten(rs), (d: Device) => d.Kind() == k)
         == Flatten(seq(|rs|, i requires 0 <= i < |rs| => Room(rs[i].name, DevicesByType(rs[i], k))))
  {
    var q := (d: Device) => d.Kind() == k;
    var byType := seq(|rs|, i requires 0 <= i < |rs| => Room(rs[i].name, DevicesByType(rs[i], k)));
    if |rs| > 0 {
      assert Flatten(rs) == rs[0].devices + Flatten(rs[1..]);
      FilterConcat(rs[0].devices, Flatten(rs[1..]), q);
      FilterKindByRoom(rs[1..], k);
      assert byType[0].devices == Filter(rs[0].devices, q);
      assert Flatten(byType) == byType[0].devices + Flatten(byType[1..]);
      assert byType[1..] == seq(|rs[1..]|, i requires 0 <= i < |rs[1..]| => Room(rs[1..][i].name, DevicesByType(rs[1..][i], k)));
    }
  }

  /** The case of the requested name does not matter. */
  lemma ListIgnoresCase(h: Home, typeName: string)
    ensures ListDevicesByType(h, Text.Lower(typeName)) == ListDevicesByType(h, typeName)
  {
    forall d: Device
      ensures Text.EqualsIgnoreCase(d.TypeName(), Text.Lower(typeName)) == Text.EqualsIgnoreCase(d.TypeName(), typeName)
    {
      Text.LowerIdempotent(typeName);
    }
    FilterSame(AllDevices(h),
      (d: Device) => Text.EqualsIgnoreCase(d.TypeName(), Text.Lower(typeName)),
      (d: Device) => Text.EqualsIgnoreCase(d.TypeName(), typeName));
  }

  /** Position of the first device whose command fails, or `|ds|`. */
  function FirstFailure(ds: seq<Device>, c: Command): (k: nat)
    ensures k <= |ds|
    ensures forall i :: 0 <= i < k ==> Devices.ExecuteCommand(ds[i], c).Ok?
    ensures k < |ds| ==> Devices.ExecuteCommand(ds[k], c).Err?
  {
    if |ds| == 0 then 0
    else if Devices.ExecuteCommand(ds[0], c).Err? then 0
    else 1 + FirstFailure(ds[1..], c)
  }

  datatype Applied = Applied(devices: seq<Device>, failure: Option<Error>)

  /** The command handed to each device in order, stopping at the first
      device whose command throws. */
  function ApplyAll(ds: seq<Device>, c: Command): (r: Applied)
    ensures |r.devices| == |ds|
  {
    if |ds| == 0 then Applied([], None)
    else
      match Devices.ExecuteCommand(ds[0], c)
      case Err(e) => Applied(ds, Some(e))
      case Ok(d) =>
        var rest := ApplyAll(ds[1..], c);
        Applied([d] + rest.devices, rest.failure)
  }

  /** An exception from one device ends the loop: the devices before it
      keep their change, it and the devices after it are untouched, and the
      exception is what the broadcast reports. */
  lemma {:induction false} ApplyAllStopsAtFirstFailure(ds: seq<Device>, c: Command)
    ensures forall i :: 0 <= i < FirstFailure(ds, c) ==>
      Devices.ExecuteCommand(ds[i], c) == Ok(ApplyAll(ds, c).devices[i])
    ensures forall i :: FirstFailure(ds, c) <= i < |ds| ==> ApplyAll(ds, c).devices[i] == ds[i]
    ensures ApplyAll(ds, c).failure.None? <==> FirstFailure(ds, c) == |ds|
    ensures ApplyAll(ds, c).failure.Some? ==>
      Devices.ExecuteCommand(ds[FirstFailure(ds, c)], c) == Err(ApplyAll(ds, c).failure.value)
    ensures forall i :: 0 <= i < |ds| ==> SameDevice(ds[i], ApplyAll(ds, c).devices[i])
  {
    if |ds| > 0 {
      var rest := ds[1..];
      ApplyAllStopsAtFirstFailure(rest, c);
      var r := ApplyAll(ds, c);
      match Devices.ExecuteCommand(ds[0], c)
      case Err(e) =>
        assert FirstFailure(ds, c) == 0 && r == Applied(ds, Some(e));
      case Ok(d) =>
        var rr := ApplyAll(rest, c);
        assert r == Applied([d] + rr.devices, rr.failure);
        assert FirstFailure(ds, c) == 1 + FirstFailure(rest, c);
        assert r.devices[0] == d && SameDevice(ds[0], d);
        forall i | 1 <= i < |ds|
          ensures r.devices[i] == rr.devices[i - 1] && ds[i] == rest[i - 1]
        {
        }
    }
  }

  lemma {:induction false} ApplyAllConcat(a: seq<Device>, b: seq<Device>, c: Command)
    ensures ApplyAll(a + b, c) ==
      if ApplyAll(a, c).failure.Some? then Applied(ApplyAll(a, c).devices + b, ApplyAll(a, c).failure)
      else Applied(ApplyAll(a, c).devices + ApplyAll(b, c).devices, ApplyAll(b, c).failure)
  {
    if |a| == 0 {
      assert a + b == b;
    } else {
      assert (a + b)[1..] == a[1..] + b;
      assert (a + b)[0] == a[0];
      ApplyAllConcat(a[1..], b, c);
      var ra := ApplyAll(a[1..], c);
      match Devices.ExecuteCommand(a[0], c)
      case Err(e) =>
      case Ok(d) =>
        if ra.failure.Some? {
          assert [d] + (ra.devices + b) == ([d] + ra.devices) + b;
        } else {
          var rb := ApplyAll(b, c);
          assert [d] + (ra.devices + rb.devices) == ([d] + ra.devices) + rb.devices;
        }
    }
  }

  datatype Broadcast = Broadcast(rooms: seq<Room>, failure: Option<Error>)

  /** `out` is `rs` with devices changed in place: same rooms, same names,
      and in each place a device with the same identity. */
  predicate SamePlaces(rs: seq<Room>, out: seq<Room>) {
    && |out| == |rs|
    && (forall i :: 0 <= i < |rs| ==>
         out[i].name == rs[i].name && |out[i].devices| == |rs[i].devices|)
    && (forall i, j :: 0 <= i < |rs| && 0 <= j < |rs[i].devices| ==>
         SameDevice(rs[i].devices[j], out[i].devices[j]))
  }

  lemma ConsSamePlaces(rs: seq<Room>, out: seq<Room>)
    requires |rs| > 0 && |out| == |rs| && out[0].name == rs[0].name
    requires |out[0].devices| == |rs[0].devices|
    requires forall j :: 0 <= j < |rs[0].devices| ==> SameDevice(rs[0].devices[j], out[0].devices[j])
    requires SamePlaces(rs[1..], out[1..])
    ensures SamePlaces(rs, out)
  {
    forall i | 1 <= i < |rs|
      ensures out[i] == out[1..][i - 1] && rs[i] == rs[1..][i - 1]
    {
    }
  }

  /** The command handed room by room; a failure in one room leaves the
      later rooms untouched. */
  function ApplyRooms(rs: seq<Room>, c: Command): (r: Broadcast)
    ensures |r.rooms| == |rs|
    ensures forall i :: 0 <= i < |rs| ==> r.rooms[i].name == rs[i].name
    ensures SamePlaces(rs, r.rooms)
    ensures Flatten(r.rooms) == ApplyAll(Flatten(rs), c).devices
    ensures r.failure == ApplyAll(Flatten(rs), c).failure
  {
    if |rs| == 0 then Broadcast([], None)
    else
      var first := ApplyAll(rs[0].devices, c);
      ApplyAllStopsAtFirstFailure(rs[0].devices, c);
      ApplyAllConcat(rs[0].devices, Flatten(rs[1..]), c);
      if first.failure.Some? then
        var out := [rs[0].(devices := first.devices)] + rs[1..];
        assert out[1..] == rs[1..];
        ConsSamePlaces(rs, out);
        Broadcast(out, first.failure)
      else
        var rest := ApplyRooms(rs[1..], c);
        var out := [rs[0].(devices := first.devices)] + rest.rooms;
        assert out[1..] == rest.rooms;
        ConsSamePlaces(rs, out);
        Broadcast(out, rest.failure)
  }

  /** `executeGlobalCommand`: every device is `Controllable`, so the
      command reaches each one in `AllDevices` order until one throws. */
  function ExecuteGlobalCommand(h: Home, c: Command): (r: (Home, Option<Error>))
    ensures r.0.name == h.name && |r.0.rooms| == |h.rooms|
    ensures AllDevices(r.0) == ApplyAll(AllDevices(h), c).devices
    ensures r.1 == ApplyAll(AllDevices(h), c).failure
    ensures r.1.None? ==> forall i :: 0 <= i < |AllDevices(h)| ==>
      Devices.ExecuteCommand(AllDevices(h)[i], c) == Ok(AllDevices(r.0)[i])
    ensures r.1.Some? ==>
      (exists k :: 0 <= k < |AllDevices(h)| && Devices.ExecuteCommand(AllDevices(h)[k], c) == Err(r.1.value))
    ensures forall i :: 0 <= i < |AllDevices(h)| ==> SameDevice(AllDevices(h)[i], AllDevices(r.0)[i])
    ensures SamePlaces(h.rooms, r.0.rooms)
    ensures Homes.Valid(h) ==> Homes.Valid(r.0)
  {
    ApplyAllStopsAtFirstFailure(AllDevices(h), c);
    var b := ApplyRooms(h.rooms, c);
    if Homes.Valid(h) then SamePlacesKeepValid(h, b.rooms); (h.(rooms := b.rooms), b.failure)
    else (h.(rooms := b.rooms), b.failure)
  }

  /** Rooms that keep their names and hold, place by place, the same
      devices keep the home invariant: names and identifiers are unchanged. */
  lemma SamePlacesKeepValid(h: Home, rooms: seq<Room>)
    requires Homes.Valid(h) && SamePlaces(h.rooms, rooms)
    ensures Homes.Valid(h.(rooms := rooms))
  {
    forall i | 0 <= i < |rooms|
      ensures UniqueIds(rooms[i].devices)
    {
      var a, b := h.rooms[i].devices, rooms[i].devices;
      assert forall j :: 0 <= j < |b| ==> b[j].id == a[j].id;
    }
  }

  /** A bare "off" broadcast never fails and leaves every device off. */
  lemma GlobalOffSwitchesAllOff(h: Home)
    ensures ExecuteGlobalCommand(h, Bare("off")).1.None?
    ensures forall d :: d in AllDevices(ExecuteGlobalCommand(h, Bare("off")).0) ==> !d.on
  {
    var ds := AllDevices(h);
    assert FirstFailure(ds, Bare("off")) == |ds|;
    ApplyAllStopsAtFirstFailure(ds, Bare("off"));
  }

  /** The per-device step of `energySavingMode`: a light that is on is set
      to 30% through `setBrightness`, a TV is switched off, and thermostats,
      sensors and lights that are off are left alone. */
  function Save(d: Device): Device {
    if IsLight(d) then
      if d.on then
        match Lights.SetBrightness(d, 30)
        case Ok(l) => l
        case Err(_) => d  // 30 is always in range
      else d
    else if IsTV(d) then SmartTVs.TurnOff(d)
    else d
  }

  /** `energySavingMode`. */
  function EnergySavingMode(h: Home): (res: Home)
    ensures res.name == h.name && |AllDevices(res)| == |AllDevices(h)|
    ensures forall i :: 0 <= i < |AllDevices(h)| ==> SameDevice(AllDevices(h)[i], AllDevices(res)[i])
    ensures forall i :: 0 <= i < |AllDevices(h)| && IsLight(AllDevices(h)[i]) && AllDevices(h)[i].on ==>
      IsLight(AllDevices(res)[i]) && AllDevices(res)[i].on && AllDevices(res)[i].state.brightness == 30
    ensures forall i :: 0 <= i < |AllDevices(h)| && IsLight(AllDevices(h)[i]) && !AllDevices(h)[i].on ==>
      AllDevices(res)[i] == AllDevices(h)[i]
    ensures forall i :: 0 <= i < |AllDevices(h)| && IsTV(AllDevices(h)[i]) ==>
      IsTV(AllDevices(res)[i]) && !AllDevices(res)[i].on && !AllDevices(res)[i].state.streaming
    ensures forall i :: 0 <= i < |AllDevices(h)| && !IsLight(AllDevices(h)[i]) && !IsTV(AllDevices(h)[i]) ==>
      AllDevices(res)[i] == AllDevices(h)[i]
    ensures Homes.Valid(h) ==> Homes.Valid(res)
  {
    FlattenMapRooms(h.rooms, Save);
    SaveEach(AllDevices(h));
    h.(rooms := MapRooms(h.rooms, Save))
  }

  /** What the energy-saving step does to each device of a list. */
  lemma SaveEach(ds: seq<Device>)
    ensures forall i :: 0 <= i < |ds| ==> SameDevice(ds[i], Map(ds, Save)[i])
    ensures forall i :: 0 <= i < |ds| && IsLight(ds[i]) && ds[i].on ==>
      IsLight(Map(ds, Save)[i]) && Map(ds, Save)[i].on && Map(ds, Save)[i].state.brightness == 30
    ensures forall i :: 0 <= i < |ds| && IsLight(ds[i]) && !ds[i].on ==> Map(ds, Save)[i] == ds[i]
    ensures forall i :: 0 <= i < |ds| && IsTV(ds[i]) ==>
      IsTV(Map(ds, Save)[i]) && !Map(ds, Save)[i].on && !Map(ds, Save)[i].state.streaming
    ensures forall i :: 0 <= i < |ds| && !IsLight(ds[i]) && !IsTV(ds[i]) ==> Map(ds, Save)[i] == ds[i]
  {
    forall i | 0 <= i < |ds|
      ensures Map(ds, Save)[i] == Save(ds[i])
    {
    }
  }

  /** The most a device may draw after energy-saving mode: 3 W for a light,
      150 W for a thermostat, nothing for a TV or a sensor. */
  function SavedBound(d: Device): int {
    if IsLight(d) then 30 else if d.state.ThermostatState? then 1500 else 0
  }

  function SumBound(ds: seq<Device>): int {
    if |ds| == 0 then 0 else SavedBound(ds[0]) + SumBound(ds[1..])
  }

  lemma {:induction false} SavedWithinBound(ds: seq<Device>)
    ensures SumEnergy(Map(ds, Save)) <= SumBound(ds)
  {
    if |ds| > 0 {
      assert Map(ds, Save)[1..] == Map(ds[1..], Save);
      SavedWithinBound(ds[1..]);
    }
  }

  /** After energy-saving mode the home draws at most 3 W per light and
      150 W per thermostat, whatever it drew before. */
  lemma EnergySavingBound(h: Home)
    ensures SumEnergy(AllDevices(EnergySavingMode(h))) <= SumBound(AllDevices(h))
  {
    FlattenMapRooms(h.rooms, Save);
    SavedWithinBound(AllDevices(h));
  }
}

=== FILE: demo_rules.dfy ===
/** The home and the two rules the simulator sets up at start-up, and a
    worked example of a pass whose outcome depends on rule order.

    "Motion Light Rule": when the living-room sensor reports motion, switch
    the living-room light on if it is off. "Energy Saving Rule": when the
    home draws more than 200 W (2000 tenths), set the living-room light to
    30% and switch the TV off. */
module DemoRules {
  import opened SmartDevice
  import opened Rooms
  import opened Homes
  import opened AutomationRules
  import opened AutomationEngine
  import Controller
  import Lights
  import SmartTVs
  import MotionSensors
  import Thermostats
  import Results

  /** The device with identifier `id` changed by `f`, wherever it is; the
      stand-in for a rule's captured reference to one device. */
  function ApplyTo(h: Home, id: string, f: Device -> Device): (res: Home)
    ensures res.name == h.name
  {
    h.(rooms := MapRooms(h.rooms, (d: Device) => if d.id == id then f(d) else d))
  }

  function LightOnIfOff(d: Device): Device {
    if d.state.LightState? && !d.on then Lights.TurnOn(d) else d
  }

  /** The saving action's `setBrightness(30)` on a light. Like the Java
      call it also switches an off light on; other devices are untouched. */
  function SetTo30(d: Device): Device {
    if d.state.LightState? then
      match Lights.SetBrightness(d, 30)
      case Ok(l) => l
      case Err(_) => d  // 30 is always in range
    else d
  }

  function TVOff(d: Device): Device {
    if d.state.TVState? then SmartTVs.TurnOff(d) else d
  }

  predicate SensorReportsMotion(h: Home) {
    match FindDevice(h, "S001")
    case Ok(d) => d.state.SensorState? && MotionSensors.IsMotionDetected(d)
    case Err(_) => false
  }

  predicate HighConsumption(h: Home) {
    Controller.SumEnergy(AllDevices(h)) > 2000
  }

  function MotionAction(h: Home): Home {
    ApplyTo(h, "L001", LightOnIfOff)
  }

  function SavingAction(h: Home): Home {
    ApplyTo(ApplyTo(h, "L001", SetTo30), "TV001", TVOff)
  }

  function MotionRule(): Rule {
    NewRule("Motion Light Rule", SensorReportsMotion, MotionAction)
  }

  function SavingRule(): Rule {
    NewRule("Energy Saving Rule", HighConsumption, SavingAction)
  }

  // The six devices as the start-up code creates them: every one is off.
  // The three lights keep this form in the example below.

  function L1(): Device {
    Lights.NewLight("L001", "Living Room Light", 75)
  }

  function T0(): Device {
    Thermostats.NewThermostat("T001", "Main Thermostat", 22)
  }

  function TV0(): Device {
    SmartTVs.NewTV("TV001", "Living Room TV")
  }

  function S0(): Device {
    MotionSensors.NewSensor("S001", "Living Room Sensor")
  }

  function L2(): Device {
    Lights.NewLight("L002", "Bedroom Light", 50)
  }

  function L3(): Device {
    Lights.NewLight("L003", "Kitchen Light", 100)
  }

  /** The home as the start-up code wires it: three rooms, six devices. */
  function Startup(): Home {
    Home("My Smart Home", [
      Room("Living Room", [L1(), T0(), TV0(), S0()]),
      Room("Bedroom", [L2()]),
      Room("Kitchen", [L3()])])
  }

  lemma StartupDevices()
    ensures AllDevices(Startup()) == [L1(), T0(), TV0(), S0(), L2(), L3()]
  {
  }

  /** At start-up the home is well formed, every device is in range and
      off, and the home draws nothing. */
  lemma StartupDrawsNothing()
    ensures Homes.Valid(Startup())
    ensures AllValid(AllDevices(Startup()))
    ensures forall d :: d in AllDevices(Startup()) ==> !d.on
    ensures Controller.SumEnergy(AllDevices(Startup())) == 0
  {
    StartupDevices();
    LivingRoomIds(L1(), T0(), TV0(), S0());
    ThreeRoomsValid(Startup());
    var ds := [L1(), T0(), TV0(), S0(), L2(), L3()];
    assert forall i :: 0 <= i < |ds| ==> !ds[i].on && SmartDevice.Valid(ds[i]);
    Controller.SumEnergyBounds(ds);
  }

  /** The living room's four devices carry distinct identifiers. */
  lemma LivingRoomIds(l: Device, t: Device, tv: Device, s: Device)
    requires l.id == "L001" && t.id == "T001" && tv.id == "TV001" && s.id == "S001"
    ensures UniqueIds([l, t, tv, s])
  {
    assert l.id[0] == 'L' && t.id[0] == 'T' && s.id[0] == 'S';
    assert t.id[1] == '0' && tv.id[1] == 'V';
  }

  /** A home of the start-up shape is valid once its living room is. */
  lemma ThreeRoomsValid(h: Home)
    requires |h.rooms| == 3 && |h.rooms[1].devices| == 1 && |h.rooms[2].devices| == 1
    requires h.rooms[0].name == "Living Room" && h.rooms[1].name == "Bedroom"
    requires h.rooms[2].name == "Kitchen" && UniqueIds(h.rooms[0].devices)
    ensures Homes.Valid(h)
  {
    assert "Living Room"[0] == 'L' && "Bedroom"[0] == 'B' && "Kitchen"[0] == 'K';
  }

  // The devices of the worked example. None of them is built directly: each
  // is a start-up device after public operations (see ScenarioReachable).

  function T1(): Device {
    Device("T001", "Main Thermostat", true, ThermostatState(22, 24, "auto", map[]))
  }

  function TV1(): Device {
    Device("TV001", "Living Room TV", true, TVState(1, 50, false, "none"))
  }

  function S1(): Device {
    Device("S001", "Living Room Sensor", true, SensorState(true, 5))
  }

  /** The example's devices are the start-up devices after public calls:
      the thermostat given target 24 while off and then switched on, the TV
      switched on, the sensor switched on and then detecting motion. */
  lemma ScenarioReachable()
    ensures Thermostats.SetTemperature(T0(), 24).Ok?
    ensures T1() == Thermostats.TurnOn(Thermostats.SetTemperature(T0(), 24).value)
    ensures TV1() == SmartTVs.TurnOn(TV0())
    ensures S1() == MotionSensors.DetectMotion(MotionSensors.TurnOn(S0()))
  {
  }

  /** The start-up home after the calls of ScenarioReachable: the thermostat
      is on and still 2 degrees from its target in auto mode (120 W), the TV
      is on without streaming (80 W), every light is off and the sensor has
      seen motion. That is exactly 200 W, not more. The simulator's console
      menu never switches the sensor on, so it never reaches this state by
      itself; another caller of the public operations can. */
  function Scenario(): Home {
    Home("My Smart Home", [
      Room("Living Room", [L1(), T1(), TV1(), S1()]),
      Room("Bedroom", [L2()]),
      Room("Kitchen", [L3()])])
  }

  lemma ScenarioDevices()
    ensures AllDevices(Scenario()) == [L1(), T1(), TV1(), S1(), L2(), L3()]
  {
  }

  lemma ScenarioValid()
    ensures Homes.Valid(Scenario())
    ensures AllValid(AllDevices(Scenario()))
    ensures Controller.SumEnergy(AllDevices(Scenario())) == 2000
  {
    ScenarioDevices();
    LivingRoomIds(L1(), T1(), TV1(), S1());
    ThreeRoomsValid(Scenario());
    var ds := [L1(), T1(), TV1(), S1(), L2(), L3()];
    assert forall i :: 0 <= i < |ds| ==> SmartDevice.Valid(ds[i]);
    ScenarioEnergy(ds);
  }

  /** The example's draw: 1200 for the thermostat, 800 for the TV, nothing
      for the lights that are off or for the sensor. */
  lemma ScenarioEnergy(ds: seq<Device>)
    requires ds == [L1(), T1(), TV1(), S1(), L2(), L3()]
    ensures Controller.SumEnergy(ds) == 2000
  {
    assert Controller.Contribution(TV1()) == 800;
    assert Controller.Contribution(T1()) == 1200;
    assert !L1().on && !L2().on && !L3().on;
    assert Controller.Contribution(S1()) == 0;
    assert Controller.Contribution(L2()) == 0 && Controller.Contribution(L3()) == 0;
    assert ds[4..] == [L2(), L3()] && [L2(), L3()][1..] == [L3()] && [L3()][1..] == [];
    assert Controller.SumEnergy(ds[4..]) == 0;
    assert Controller.SumEnergy(ds[2..]) == 800;
  }

  /** The sensor rule finds the living-room sensor in the fourth place of
      the flattened list, whatever state the devices are in. */
  lemma SensorFound(h: Home, l: Device, t: Device, tv: Device, s: Device)
    requires AllDevices(h) == [l, t, tv, s, L2(), L3()]
    requires l.id == "L001" && t.id == "T001" && tv.id == "TV001" && s.id == "S001"
    ensures FindDevice(h, "S001") == Results.Ok(s)
  {
    var ds := AllDevices(h);
    assert ds[0].id[0] == 'L' && ds[1].id[0] == 'T' && ds[2].id[0] == 'T' && ds[3].id == "S001";
    var k := IndexOf(ds, "S001");
    assert k == 3;
  }

  lemma SensorSeesMotion(h: Home, l: Device)
    requires AllDevices(h) == [l, T1(), TV1(), S1(), L2(), L3()]
    requires l.id == "L001"
    ensures SensorReportsMotion(h)
  {
    SensorFound(h, l, T1(), TV1(), S1());
  }

  /** At start-up neither rule fires, in either order: the sensor is off, so
      it reports no motion, and the home draws nothing. */
  lemma StartupPassFiresNothing(h0: Home)
    requires AllDevices(h0) == [L1(), T0(), TV0(), S0(), L2(), L3()]
    ensures EvaluatePass([MotionRule(), SavingRule()], h0) == Pass(h0, 0)
    ensures EvaluatePass([SavingRule(), MotionRule()], h0) == Pass(h0, 0)
  {
    SensorFound(h0, L1(), T0(), TV0(), S0());
    assert !SensorReportsMotion(h0);
    assert Controller.SumEnergy([L1(), T0(), TV0(), S0(), L2(), L3()]) == 0;
    assert !HighConsumption(h0);
    TwoRulePass(MotionRule(), SavingRule(), h0);
    TwoRulePass(SavingRule(), MotionRule(), h0);
  }

  /** How the actions change the flattened list. */
  lemma ApplyToDevices(h: Home, id: string, f: Device -> Device)
    ensures AllDevices(ApplyTo(h, id, f)) ==
      Map(AllDevices(h), (d: Device) => if d.id == id then f(d) else d)
  {
    FlattenMapRooms(h.rooms, (d: Device) => if d.id == id then f(d) else d);
  }

  lemma MotionActionDevices(h: Home)
    requires AllDevices(h) == [L1(), T1(), TV1(), S1(), L2(), L3()]
    ensures AllDevices(MotionAction(h)) == [Lights.TurnOn(L1()), T1(), TV1(), S1(), L2(), L3()]
  {
    ApplyToDevices(h, "L001", LightOnIfOff);
    var ds := AllDevices(MotionAction(h));
    assert L1().id == "L001" && !L1().on;
    assert LightOnIfOff(L1()) == Lights.TurnOn(L1());
    assert ds[0] == Lights.TurnOn(L1());
    assert ds[1] == T1() && ds[2] == TV1() && ds[3] == S1() && ds[4] == L2() && ds[5] == L3() by {
      assert T1().id[0] == 'T' && TV1().id[0] == 'T' && S1().id[0] == 'S';
      assert L2().id[3] == '2' && L3().id[3] == '3';
    }
  }

  lemma SavingActionDevices(h: Home, l: Device)
    requires AllDevices(h) == [l, T1(), TV1(), S1(), L2(), L3()]
    requires l.id == "L001" && l.state.LightState?
    ensures AllDevices(SavingAction(h)) ==
      [SetTo30(l), T1(), SmartTVs.TurnOff(TV1()), S1(), L2(), L3()]
  {
    DimStep(h, l);
    TVStep(ApplyTo(h, "L001", SetTo30), SetTo30(l));
  }

  /** The first half of the saving action: only the living-room light is set to 30%. */
  lemma DimStep(h: Home, l: Device)
    requires AllDevices(h) == [l, T1(), TV1(), S1(), L2(), L3()]
    requires l.id == "L001" && l.state.LightState?
    ensures AllDevices(ApplyTo(h, "L001", SetTo30)) == [SetTo30(l), T1(), TV1(), S1(), L2(), L3()]
  {
    assert T1().id[0] == 'T' && TV1().id[0] == 'T' && S1().id[0] == 'S';
    assert L2().id[3] == '2' && L3().id[3] == '3';
    ApplyToDevices(h, "L001", SetTo30);
  }

  /** The second half: only the TV switches off. */
  lemma TVStep(h: Home, l: Device)
    requires AllDevices(h) == [l, T1(), TV1(), S1(), L2(), L3()]
    requires l.id == "L001"
    ensures AllDevices(ApplyTo(h, "TV001", TVOff)) == [l, T1(), SmartTVs.TurnOff(TV1()), S1(), L2(), L3()]
  {
    assert l.id[0] == 'L' && T1().id[0] == 'T' && S1().id[0] == 'S';
    assert L2().id[0] == 'L' && L3().id[0] == 'L' && T1().id[1] == '0';
    assert TVOff(TV1()) == SmartTVs.TurnOff(TV1());
    ApplyToDevices(h, "TV001", TVOff);
  }

  /** The home draws exactly 200 W before the pass... */
  lemma NotHighBefore(h: Home)
    requires AllDevices(h) == [L1(), T1(), TV1(), S1(), L2(), L3()]
    ensures !HighConsumption(h)
  {
    assert Controller.SumEnergy([L1(), T1(), TV1(), S1(), L2(), L3()]) == 2000;
  }

  /** ... and 207.5 W once the living-room light is on. */
  lemma HighAfterMotion(h: Home)
    requires AllDevices(h) == [Lights.TurnOn(L1()), T1(), TV1(), S1(), L2(), L3()]
    ensures HighConsumption(h)
  {
    assert Controller.SumEnergy([Lights.TurnOn(L1()), T1(), TV1(), S1(), L2(), L3()]) == 2075;
  }

  /** A rule's pass step is its `executeIfTrue`. */
  lemma SingleRulePass(rule: Rule, h: Home)
    ensures EvaluatePass([rule], h) ==
      Pass(ExecuteIfTrue(rule, h).home, if ExecuteIfTrue(rule, h).fired then 1 else 0)
  {
    assert [rule][1..] == [];
  }

  lemma TwoRulePass(a: Rule, b: Rule, h: Home)
    ensures var f := ExecuteIfTrue(a, h);
      var g := ExecuteIfTrue(b, f.home);
      EvaluatePass([a, b], h) ==
        Pass(g.home, (if f.fired then 1 else 0) + (if g.fired then 1 else 0))
  {
    assert [a, b][1..] == [b];
    SingleRulePass(b, ExecuteIfTrue(a, h).home);
  }

  /** Motion rule first: the light it switches on pushes the home over
      200 W, so the saving rule fires in the same pass, dims that light to
      30% and switches the TV off. Two rules fire. */
  lemma MotionThenSaving(h0: Home)
    requires AllDevices(h0) == [L1(), T1(), TV1(), S1(), L2(), L3()]
    ensures var p := EvaluatePass([MotionRule(), SavingRule()], h0);
      p.executed == 2 && AllDevices(p.home) ==
        [SetTo30(Lights.TurnOn(L1())), T1(), SmartTVs.TurnOff(TV1()), S1(), L2(), L3()]
  {
    SensorSeesMotion(h0, L1());
    var h1 := MotionAction(h0);
    MotionActionDevices(h0);
    HighAfterMotion(h1);
    SavingActionDevices(h1, Lights.TurnOn(L1()));
    TwoRulePass(MotionRule(), SavingRule(), h0);
  }

  /** Saving rule first: at exactly 200 W it does not fire; the motion rule
      then switches the light on at 75% and the TV stays on. One rule fires. */
  lemma SavingThenMotion(h0: Home)
    requires AllDevices(h0) == [L1(), T1(), TV1(), S1(), L2(), L3()]
    ensures var p := EvaluatePass([SavingRule(), MotionRule()], h0);
      p.executed == 1 && AllDevices(p.home) == [Lights.TurnOn(L1()), T1(), TV1(), S1(), L2(), L3()]
  {
    NotHighBefore(h0);
    SensorSeesMotion(h0, L1());
    MotionActionDevices(h0);
    TwoRulePass(SavingRule(), MotionRule(), h0);
  }
}

=== FILE: devices.dfy ===
/** Calls through the base class and the interfaces: power, energy and
    commands on a device of any class, dispatched to its variant. */
module Devices {
  import opened Results
  import opened SmartDevice
  import opened Commands
  import Lights
  import Thermostats
  import SmartTVs
  import MotionSensors

  function TurnOn(d: Device): (r: Device)
    ensures r.on && SameDevice(d, r)
    ensures Valid(d) ==> Valid(r)
  {
    match d.state
    case LightState(_, _, _) => Lights.TurnOn(d)
    case ThermostatState(_, _, _, _) => Thermostats.TurnOn(d)
    case TVState(_, _, _, _) => SmartTVs.TurnOn(d)
    case SensorState(_, _) => MotionSensors.TurnOn(d)
  }

  function TurnOff(d: Device): (r: Device)
    ensures !r.on && SameDevice(d, r)
    ensures Valid(d) ==> Valid(r)
  {
    match d.state
    case LightState(_, _, _) => Lights.TurnOff(d)
    case ThermostatState(_, _, _, _) => Thermostats.TurnOff(d)
    case TVState(_, _, _, _) => SmartTVs.TurnOff(d)
    case SensorState(_, _) => MotionSensors.TurnOff(d)
  }

  /** `getEnergyConsumption` of an `EnergyConsumer`, in tenths of a watt. */
  function Energy(d: Device): (e: int)
    requires d.IsEnergyConsumer()
    ensures !d.on ==> e == 0
    ensures Valid(d) ==> 0 <= e <= 1500
  {
    match d.state
    case LightState(_, _, _) => Lights.Energy(d)
    case ThermostatState(_, _, _, _) => Thermostats.Energy(d)
    case TVState(_, _, _, _) => SmartTVs.Energy(d)
  }

  /** `executeCommand` of a `Controllable`. Every class understands a bare
      "on" and "off"; only a TV or a thermostat command can fail. */
  function ExecuteCommand(d: Device, c: Command): (r: Result<Device>)
    ensures c == Bare("on") ==> r == Ok(TurnOn(d))
    ensures c == Bare("off") ==> r == Ok(TurnOff(d))
    ensures r.Ok? ==> SameDevice(d, r.value) && (Valid(d) ==> Valid(r.value))
    ensures d.state.SensorState? ==> r.Ok?
    ensures d.state.LightState? && Valid(d) ==> r.Ok?
  {
    match d.state
    case LightState(_, _, _) => Lights.ExecuteCommand(d, c)
    case ThermostatState(_, _, _, _) => Thermostats.ExecuteCommand(d, c)
    case TVState(_, _, _, _) => SmartTVs.ExecuteCommand(d, c)
    case SensorState(_, _) => Ok(MotionSensors.ExecuteCommand(d, c))
  }

  /** Switching off is idempotent for every class. */
  lemma TurnOffIdempotent(d: Device)
    ensures TurnOff(TurnOff(d)) == TurnOff(d)
  {
  }

  /** Switching on is idempotent for every class. */
  lemma TurnOnIdempotent(d: Device)
    ensures TurnOn(TurnOn(d)) == TurnOn(d)
  {
  }
}

=== FILE: home.dfy ===
/** Home: rooms keyed by name. Adding a room under a name already present
    replaces that room; device queries run over every room's devices. The
    source keeps rooms in a hash map whose iteration order is unspecified;
    here they are a sequence with distinct names, and no property below
    depends on which order that sequence has. */
module Homes {
  import opened Results
  import opened SmartDevice
  import opened Rooms
  import Devices

  datatype Home = Home(name: string, rooms: seq<Room>)

  predicate UniqueNames(rs: seq<Room>) {
    forall i, j :: 0 <= i < j < |rs| ==> rs[i].name != rs[j].name
  }

  /** The home invariant: room names are keys, and every room keeps its own
      identifiers distinct. Identifiers may repeat across rooms. */
  predicate Valid(h: Home) {
    && UniqueNames(h.rooms)
    && forall i :: 0 <= i < |h.rooms| ==> UniqueIds(h.rooms[i].devices)
  }

  predicate HasRoom(rs: seq<Room>, name: string) {
    exists i :: 0 <= i < |rs| && rs[i].name == name
  }

  /** Position of the first room called `name`, or `|rs|` if there is none. */
  function RoomIndex(rs: seq<Room>, name: string): (k: nat)
    ensures k <= |rs|
    ensures k < |rs| ==> rs[k].name == name
    ensures forall i :: 0 <= i < k ==> rs[i].name != name
  {
    if |rs| == 0 then 0
    else if rs[0].name == name then 0
    else 1 + RoomIndex(rs[1..], name)
  }

  /** `getRoom`: the room stored under the name, or nothing. */
  function GetRoom(h: Home, name: string): (r: Option<Room>)
    ensures r.Some? <==> HasRoom(h.rooms, name)
    ensures r.Some? ==> r.value.name == name && r.value in h.rooms
  {
    var k := RoomIndex(h.rooms, name);
    if k < |h.rooms| then Some(h.rooms[k]) else None
  }

  /** Sequences of rooms with the same names in the same places look up
      every name at the same place. */
  lemma {:induction false} RoomIndexByNames(rs: seq<Room>, ss: seq<Room>, name: string)
    requires |rs| == |ss|
    requires forall i :: 0 <= i < |rs| ==> rs[i].name == ss[i].name
    ensures RoomIndex(rs, name) == RoomIndex(ss, name)
  {
    if |rs| > 0 {
      RoomIndexByNames(rs[1..], ss[1..], name);
    }
  }

  /** Appending a room leaves the lookup of every other name unchanged. */
  lemma {:induction false} RoomIndexAppend(rs: seq<Room>, r: Room, name: string)
    ensures RoomIndex(rs + [r], name) ==
      if RoomIndex(rs, name) < |rs| then RoomIndex(rs, name)
      else if r.name == name then |rs| else |rs| + 1
  {
    if |rs| > 0 {
      assert (rs + [r])[1..] == rs[1..] + [r];
      RoomIndexAppend(rs[1..], r, name);
    }
  }

  /** Replacing a room by one of the same name moves no name. */
  lemma RoomIndexReplace(rs: seq<Room>, k: nat, r: Room)
    requires k < |rs| && rs[k].name == r.name
    ensures forall n :: RoomIndex(rs[k := r], n) == RoomIndex(rs, n)
  {
    forall n {
      RoomIndexByNames(rs[k := r], rs, n);
    }
  }

  /** Appending a room whose name is new moves no existing name. */
  lemma RoomIndexAppendAll(rs: seq<Room>, r: Room)
    requires RoomIndex(rs, r.name) == |rs|
    ensures RoomIndex(rs + [r], r.name) == |rs|
    ensures forall n :: n != r.name ==>
      (RoomIndex(rs + [r], n) == RoomIndex(rs, n) ||
       (RoomIndex(rs, n) == |rs| && RoomIndex(rs + [r], n) == |rs| + 1))
  {
    forall n {
      RoomIndexAppend(rs, r, n);
    }
  }

  /** `addRoom`: a put keyed by the room's name. The room is stored under its
      name, replacing any room already there; every other name keeps its
      room; the count grows only for a new name. */
  function AddRoom(h: Home, r: Room): (res: Home)
    ensures res.name == h.name
    ensures GetRoom(res, r.name) == Some(r)
    ensures forall n :: n != r.name ==> GetRoom(res, n) == GetRoom(h, n)
    ensures HasRoom(h.rooms, r.name) ==> |res.rooms| == |h.rooms|
    ensures !HasRoom(h.rooms, r.name) ==> |res.rooms| == |h.rooms| + 1
    ensures UniqueNames(h.rooms) ==> UniqueNames(res.rooms)
  {
    var k := RoomIndex(h.rooms, r.name);
    if k < |h.rooms| then
      RoomIndexReplace(h.rooms, k, r);
      h.(rooms := h.rooms[k := r])
    else
      RoomIndexAppendAll(h.rooms, r);
      h.(rooms := h.rooms + [r])
  }

  /** The rooms not called `name`, in order. */
  function WithoutRoom(rs: seq<Room>, name: string): (res: seq<Room>)
    ensures forall r :: r in res <==> r in rs && r.name != name
    ensures !HasRoom(rs, name) ==> res == rs
    ensures |res| <= |rs|
  {
    if |rs| == 0 then []
    else (if rs[0].name == name then [] else [rs[0]]) + WithoutRoom(rs[1..], name)
  }

  /** With distinct names, removal keeps them distinct and removes exactly
      one room when the name is present. */
  lemma {:induction false} WithoutRoomKeepsNamesUnique(rs: seq<Room>, name: string)
    requires UniqueNames(rs)
    ensures UniqueNames(WithoutRoom(rs, name))
    ensures HasRoom(rs, name) ==> |WithoutRoom(rs, name)| == |rs| - 1
  {
    if |rs| > 0 {
      TailNamesUnique(rs);
      WithoutRoomKeepsNamesUnique(rs[1..], name);
      var rest := WithoutRoom(rs[1..], name);
      if rs[0].name == name {
        assert WithoutRoom(rs, name) == rest;
        assert rest == rs[1..];
      } else {
        assert WithoutRoom(rs, name) == [rs[0]] + rest;
        HeadKeepsNamesUnique(rs, rest);
        if HasRoom(rs, name) {
          var i :| 0 <= i < |rs| && rs[i].name == name;
          assert rs[1..][i - 1] == rs[i];
        }
      }
    }
  }

  /** Distinct names stay distinct in the tail, and the tail never repeats
      the first room's name. */
  lemma TailNamesUnique(rs: seq<Room>)
    requires |rs| > 0
    ensures rs == [rs[0]] + rs[1..]
    ensures forall r :: r in rs <==> r == rs[0] || r in rs[1..]
    ensures UniqueNames(rs) ==> UniqueNames(rs[1..]) && !HasRoom(rs[1..], rs[0].name)
  {
    assert rs == [rs[0]] + rs[1..];
    if UniqueNames(rs) {
      forall k | 0 <= k < |rs[1..]|
        ensures rs[1..][k].name != rs[0].name
      {
        assert rs[1..][k] == rs[k + 1];
      }
    }
  }

  /** Removal by name distributes over concatenation: the surviving rooms
      keep their relative order. */
  lemma {:induction false} WithoutRoomConcat(a: seq<Room>, b: seq<Room>, name: string)
    ensures WithoutRoom(a + b, name) == WithoutRoom(a, name) + WithoutRoom(b, name)
  {
    if |a| > 0 {
      assert (a + b)[0] == a[0] && (a + b)[1..] == a[1..] + b;
      WithoutRoomConcat(a[1..], b, name);
    } else {
      assert a + b == b;
    }
  }

  /** The step of WithoutRoom that keeps names distinct: the first room's
      name occurs nowhere among rooms taken from the rest. */
  lemma HeadKeepsNamesUnique(rs: seq<Room>, rest: seq<Room>)
    requires |rs| > 0
    requires forall r :: r in rest ==> r in rs[1..]
    requires UniqueNames(rs) && UniqueNames(rest)
    ensures UniqueNames([rs[0]] + rest)
  {
    var s := [rs[0]] + rest;
    forall i, j | 0 <= i < j < |s|
      ensures s[i].name != s[j].name
    {
      if i == 0 {
        assert s[j] == rest[j - 1] && s[j] in rs[1..];
        var k :| 0 <= k < |rs[1..]| && rs[1..][k] == s[j];
        assert rs[k + 1] == s[j];
      } else {
        assert s[i] == rest[i - 1] && s[j] == rest[j - 1];
      }
    }
  }

  /** `removeRoom`: drops the room stored under the name; an absent name
      leaves the home as it was. */
  function RemoveRoom(h: Home, name: string): (res: Home)
    ensures res.name == h.name
    ensures GetRoom(res, name) == None
    ensures forall r :: r in res.rooms <==> r in h.rooms && r.name != name
    ensures !HasRoom(h.rooms, name) ==> res == h
    ensures Valid(h) ==> Valid(res)
    ensures Valid(h) && HasRoom(h.rooms, name) ==> |res.rooms| == |h.rooms| - 1
  {
    var res := h.(rooms := WithoutRoom(h.rooms, name));
    if UniqueNames(h.rooms) then WithoutRoomKeepsNamesUnique(h.rooms, name); res else res
  }

  /** In a home with distinct room names, removing one name keeps every
      other name's room. */
  lemma RemoveRoomKeepsOthers(h: Home, name: string, other: string)
    requires UniqueNames(h.rooms) && other != name
    ensures GetRoom(RemoveRoom(h, name), other) == GetRoom(h, other)
  {
    var res := RemoveRoom(h, name);
    if GetRoom(h, other).Some? {
      var r := GetRoom(h, other).value;
      assert r in res.rooms;
      var s := GetRoom(res, other).value;
      assert s in h.rooms;
      var i :| 0 <= i < |h.rooms| && h.rooms[i] == r;
      var j :| 0 <= j < |h.rooms| && h.rooms[j] == s;
      assert i == j;
    }
  }

  /** Sum of the rooms' device counts. */
  function DeviceTotal(rs: seq<Room>): nat {
    if |rs| == 0 then 0 else |rs[0].devices| + DeviceTotal(rs[1..])
  }

  /** The rooms' device lists one after another, in room order. */
  function Flatten(rs: seq<Room>): (ds: seq<Device>)
    ensures |ds| == DeviceTotal(rs)
    ensures forall d :: d in ds <==> exists i :: 0 <= i < |rs| && d in rs[i].devices
  {
    if |rs| == 0 then []
    else rs[0].devices + Flatten(rs[1..])
  }

  /** `getAllDevices`. */
  function AllDevices(h: Home): seq<Device> {
    Flatten(h.rooms)
  }

  function FindIn(rs: seq<Room>, id: string): (res: Result<Device>)
    ensures res.Ok? <==> HasId(Flatten(rs), id)
    ensures res.Err? ==> res.error == DeviceNotFound(id)
    ensures res.Ok? ==> res.value == Flatten(rs)[IndexOf(Flatten(rs), id)]
  {
    if |rs| == 0 then Err(DeviceNotFound(id))
    else
      IndexOfConcat(rs[0].devices, Flatten(rs[1..]), id);
      match FindDeviceById(rs[0], id)
      case Ok(d) => Ok(d)
      case Err(_) => FindIn(rs[1..], id)
  }

  /** `findDevice`: rooms are searched one after another and the search
      fails only when none holds the identifier. The device found is the
      first with that identifier in `AllDevices`. */
  function FindDevice(h: Home, id: string): (res: Result<Device>)
    ensures res.Ok? <==> HasId(AllDevices(h), id)
    ensures res.Ok? <==> exists i :: 0 <= i < |h.rooms| && HasId(h.rooms[i].devices, id)
    ensures res.Err? ==> res.error == DeviceNotFound(id)
    ensures res.Ok? ==> res.value.id == id && res.value in AllDevices(h)
    ensures res.Ok? ==> res.value == AllDevices(h)[IndexOf(AllDevices(h), id)]
  {
    var all := AllDevices(h);
    assert HasId(all, id) ==> exists i :: 0 <= i < |h.rooms| && HasId(h.rooms[i].devices, id) by {
      if HasId(all, id) {
        var k :| 0 <= k < |all| && all[k].id == id;
        assert all[k] in all;
      }
    }
    assert (exists i :: 0 <= i < |h.rooms| && HasId(h.rooms[i].devices, id)) ==> HasId(all, id) by {
      if exists i :: 0 <= i < |h.rooms| && HasId(h.rooms[i].devices, id) {
        var i :| 0 <= i < |h.rooms| && HasId(h.rooms[i].devices, id);
        var j :| 0 <= j < |h.rooms[i].devices| && h.rooms[i].devices[j].id == id;
        assert h.rooms[i].devices[j] in all;
      }
    }
    FindIn(h.rooms, id)
  }

  /** The same change applied to every device of every room. */
  function MapRooms(rs: seq<Room>, f: Device -> Device): (res: seq<Room>)
    ensures |res| == |rs|
    ensures forall i :: 0 <= i < |rs| ==> res[i].name == rs[i].name && res[i].devices == Map(rs[i].devices, f)
  {
    seq(|rs|, i requires 0 <= i < |rs| => rs[i].(devices := Map(rs[i].devices, f)))
  }

  /** Changing every device room by room is changing every device of the
      flattened list. */
  lemma {:induction false} FlattenMapRooms(rs: seq<Room>, f: Device -> Device)
    ensures Flatten(MapRooms(rs, f)) == Map(Flatten(rs), f)
  {
    if |rs| > 0 {
      assert MapRooms(rs, f)[1..] == MapRooms(rs[1..], f);
      FlattenMapRooms(rs[1..], f);
    }
  }

  /** `turnOffEverything`: every room switches all its devices off. */
  function TurnOffEverything(h: Home): (res: Home)
    ensures res.name == h.name && |res.rooms| == |h.rooms|
    ensures forall i :: 0 <= i < |h.rooms| ==> res.rooms[i] == TurnOffAllDevices(h.rooms[i])
    ensures forall d :: d in AllDevices(res) ==> !d.on
    ensures |AllDevices(res)| == |AllDevices(h)|
    ensures Valid(h) ==> Valid(res)
  {
    var res := h.(rooms := MapRooms(h.rooms, Devices.TurnOff));
    FlattenMapRooms(h.rooms, Devices.TurnOff);
    res
  }
}

=== FILE: light.dfy ===
/** Light: a dimmable lamp. Brightness is the only driver of the power flag
    besides explicit on and off: setting 0 switches it off, setting anything
    positive switches it on. */
module Lights {
  import opened Results
  import opened SmartDevice
  import opened Commands

  function Brightness(l: Light): int {
    l.state.brightness
  }

  /** A new light: off, white, normal mode, with the brightness it was given
      (the constructor does not range-check it). */
  function NewLight(id: string, name: string, initialBrightness: int): (l: Light)
    ensures !l.on && l.id == id && l.name == name
    ensures Brightness(l) == initialBrightness
    ensures l.state.color == "white" && l.state.lightMode == "normal"
    ensures Valid(l) <==> 0 <= initialBrightness <= 100
  {
    NewDevice(id, name, LightState(initialBrightness, "white", "normal"))
  }

  /** Switching on restores full brightness to a light dimmed to 0, so a light
      that is on never shows 0%. */
  function TurnOn(l: Light): (r: Light)
    ensures r.on && SameDevice(l, r)
    ensures Brightness(l) == 0 ==> Brightness(r) == 100
    ensures Brightness(l) != 0 ==> Brightness(r) == Brightness(l)
    ensures r.state.color == l.state.color && r.state.lightMode == l.state.lightMode
    ensures Valid(l) ==> Valid(r) && Brightness(r) > 0
  {
    var b := if Brightness(l) == 0 then 100 else Brightness(l);
    l.(on := true, state := l.state.(brightness := b))
  }

  /** Switching off clears the power flag and nothing else. */
  function TurnOff(l: Light): (r: Light)
    ensures !r.on && SameDevice(l, r)
    ensures r.state == l.state
  {
    l.(on := false)
  }

  /** `setBrightness` rejects a level outside 0..100 and otherwise stores it,
      switching the light off for 0 and on for anything positive. */
  function SetBrightness(l: Light, level: int): (r: Result<Light>)
    ensures (level < 0 || level > 100) <==> r.Err?
    ensures r.Err? ==> r.error == InvalidDeviceState(BrightnessRange)
    ensures r.Ok? ==> SameDevice(l, r.value) && Valid(r.value)
    ensures r.Ok? ==> Brightness(r.value) == level && (r.value.on <==> level > 0)
    ensures r.Ok? ==> r.value.state.color == l.state.color && r.value.state.lightMode == l.state.lightMode
  {
    if level < 0 || level > 100 then
      Err(InvalidDeviceState(BrightnessRange))
    else
      Ok(l.(on := level != 0, state := l.state.(brightness := level)))
  }

  /** `dim` lowers the brightness by ten through `setBrightness`, and only when
      it is above ten. A light whose brightness was constructed above 110 makes
      that call out of range. */
  function Dim(l: Light): (r: Result<Light>)
    ensures Brightness(l) <= 10 ==> r == Ok(l)
    ensures 10 < Brightness(l) <= 110 ==>
      r.Ok? && r.value.on && Brightness(r.value) == Brightness(l) - 10 && SameDevice(l, r.value)
    ensures Brightness(l) > 110 ==> r == Err(InvalidDeviceState(BrightnessRange))
    ensures Valid(l) ==> r.Ok? && Valid(r.value)
  {
    if Brightness(l) > 10 then SetBrightness(l, Brightness(l) - 10) else Ok(l)
  }

  /** The light's command vocabulary: "on", "off" and "dim", matched against
      the whole line without regard to case. Anything else is reported and
      ignored. */
  function ExecuteCommand(l: Light, c: Command): (r: Result<Light>)
    ensures IsWord(c, "on") ==> r == Ok(TurnOn(l))
    ensures IsWord(c, "off") ==> r == Ok(TurnOff(l))
    ensures IsWord(c, "dim") ==> r == Dim(l)
    ensures !IsWord(c, "on") && !IsWord(c, "off") && !IsWord(c, "dim") ==> r == Ok(l)
    ensures r.Ok? ==> SameDevice(l, r.value) && (Valid(l) ==> Valid(r.value))
    ensures Valid(l) ==> r.Ok?
  {
    if IsWord(c, "on") then Ok(TurnOn(l))
    else if IsWord(c, "off") then Ok(TurnOff(l))
    else if IsWord(c, "dim") then Dim(l)
    else Ok(l)
  }

  /** Power draw in tenths of a watt: a tenth of a watt per percent of
      brightness while on, nothing while off. */
  function Energy(l: Light): (e: int)
    ensures !l.on ==> e == 0
    ensures Valid(l) ==> 0 <= e <= 100
    ensures l.on ==> e == Brightness(l)
  {
    if l.on then Brightness(l) else 0
  }

  /** Setting the same level twice is the same as setting it once. */
  lemma SetBrightnessIdempotent(l: Light, level: int)
    requires SetBrightness(l, level).Ok?
    ensures SetBrightness(SetBrightness(l, level).value, level) == SetBrightness(l, level)
  {
  }

  /** Dimming never raises the power draw of a light that is on and in range. */
  lemma DimSavesEnergy(l: Light)
    requires Valid(l) && l.on
    ensures Energy(Dim(l).value) <= Energy(l)
  {
  }
}

=== FILE: motion_sensor.dfy ===
/** MotionSensor: reports motion only while it is on; its sensitivity stays
    in 1..10. It consumes no energy the controller accounts for. */
module MotionSensors {
  import opened SmartDevice
  import opened Commands

  function Sensitivity(s: MotionSensor): int {
    s.state.sensitivity
  }

  /** A new sensor: off, no motion, sensitivity 5. */
  function NewSensor(id: string, name: string): (s: MotionSensor)
    ensures !s.on && s.id == id && s.name == name
    ensures !s.state.motion && Sensitivity(s) == 5
    ensures Valid(s)
  {
    NewDevice(id, name, SensorState(false, 5))
  }

  function TurnOn(s: MotionSensor): (r: MotionSensor)
    ensures r.on && SameDevice(s, r) && r.state == s.state
  {
    s.(on := true)
  }

  /** Switching off also forgets any detected motion. */
  function TurnOff(s: MotionSensor): (r: MotionSensor)
    ensures !r.on && !r.state.motion && SameDevice(s, r)
    ensures Sensitivity(r) == Sensitivity(s)
  {
    s.(on := false, state := s.state.(motion := false))
  }

  /** An active sensor records motion; an inactive one ignores it. */
  function DetectMotion(s: MotionSensor): (r: MotionSensor)
    ensures !s.on ==> r == s
    ensures s.on ==> r.on && r.state.motion && SameDevice(s, r) && Sensitivity(r) == Sensitivity(s)
  {
    if !s.on then s else s.(state := s.state.(motion := true))
  }

  function ClearMotion(s: MotionSensor): (r: MotionSensor)
    ensures !r.state.motion && SameDevice(s, r) && r.on == s.on
    ensures Sensitivity(r) == Sensitivity(s)
  {
    s.(state := s.state.(motion := false))
  }

  /** A level outside 1..10 is reported and ignored; any other is stored. */
  function SetSensitivity(s: MotionSensor, level: int): (r: MotionSensor)
    ensures (level < 1 || level > 10) ==> r == s
    ensures 1 <= level <= 10 ==> Sensitivity(r) == level
    ensures SameDevice(s, r) && r.on == s.on && r.state.motion == s.state.motion
    ensures Valid(s) ==> Valid(r)
  {
    if level < 1 || level > 10 then s else s.(state := s.state.(sensitivity := level))
  }

  /** What the sensor reports: motion is seen only while the sensor is on. */
  function IsMotionDetected(s: MotionSensor): (detected: bool)
    ensures detected ==> s.on
    ensures detected <==> s.on && s.state.motion
  {
    s.state.motion && s.on
  }

  /** The sensor's `setMode` only reports the request. */
  function SetMode(s: MotionSensor, mode: string): (r: MotionSensor)
    ensures r == s
  {
    s
  }

  /** The sensor's vocabulary: "on", "off", "detect" and "clear", matched
      against the whole line without regard to case. */
  function ExecuteCommand(s: MotionSensor, c: Command): (r: MotionSensor)
    ensures IsWord(c, "on") ==> r == TurnOn(s)
    ensures IsWord(c, "off") ==> r == TurnOff(s)
    ensures IsWord(c, "detect") ==> r == DetectMotion(s)
    ensures IsWord(c, "clear") ==> r == ClearMotion(s)
    ensures !IsWord(c, "on") && !IsWord(c, "off") && !IsWord(c, "detect") && !IsWord(c, "clear") ==>
      r == s
    ensures SameDevice(s, r) && Sensitivity(r) == Sensitivity(s)
  {
    if IsWord(c, "on") then TurnOn(s)
    else if IsWord(c, "off") then TurnOff(s)
    else if IsWord(c, "detect") then DetectMotion(s)
    else if IsWord(c, "clear") then ClearMotion(s)
    else s
  }

  /** No sequence of requests makes an inactive sensor report motion: after
      switching off, detection and clearing both leave it silent. */
  lemma OffSensorReportsNothing(s: MotionSensor)
    ensures !IsMotionDetected(TurnOff(s))
    ensures !IsMotionDetected(DetectMotion(TurnOff(s)))
    ensures !IsMotionDetected(ClearMotion(s))
    ensures !s.on ==> !IsMotionDetected(s)
  {
  }
}

=== FILE: results.dfy ===
/** Outcomes of the simulator's operations.

    The three exception classes of the source become the constructors of
    `Error`; the number-format failure that `Integer.parseInt` raises inside a
    device's command handler is the fourth. `InvalidDeviceState` carries a
    `Reason` naming which guard rejected the request, one per message in the
    source. */
module Results {

  datatype Reason =
    | BrightnessRange     // Light.setBrightness outside 0..100
    | TemperatureRange    // Thermostat.setTemperature outside 10..35
    | UnknownMode         // Thermostat.setMode not one of heat, cool, auto
    | ChannelWhileOff     // SmartTV.changeChannel on a TV that is off
    | ChannelRange        // SmartTV.changeChannel outside 1..999
    | VolumeWhileOff      // SmartTV.adjustVolume on a TV that is off
    | StreamWhileOff      // SmartTV.startStreaming on a TV that is off

  datatype Error =
    | DeviceNotFound(id: string)
    | DuplicateDevice(id: string)
    | InvalidDeviceState(reason: Reason)
    | MalformedNumber(text: string)

  /** The value of an operation that may throw one of the errors above. */
  datatype Result<+T> = Ok(value: T) | Err(error: Error)

  /** A possibly absent value (the source's `null`). */
  datatype Option<+T> = None | Some(value: T)
}

=== FILE: room.dfy ===
/** Room: a named, ordered list of devices whose identifiers are pairwise
    distinct. Devices are kept in the order they were added. */
module Rooms {
  import opened Results
  import opened SmartDevice
  import Devices

  datatype Room = Room(name: string, devices: seq<Device>)

  predicate HasId(ds: seq<Device>, id: string) {
    exists i :: 0 <= i < |ds| && ds[i].id == id
  }

  /** The room invariant: no two devices share an identifier. */
  predicate UniqueIds(ds: seq<Device>) {
    forall i, j :: 0 <= i < j < |ds| ==> ds[i].id != ds[j].id
  }

  predicate AllValid(ds: seq<Device>) {
    forall i :: 0 <= i < |ds| ==> Valid(ds[i])
  }

  /** Position of the first device with identifier `id`, or `|ds|` when
      there is none: the linear search every lookup of the room performs. */
  function IndexOf(ds: seq<Device>, id: string): (k: nat)
    ensures k <= |ds|
    ensures k < |ds| ==> ds[k].id == id
    ensures forall i :: 0 <= i < k ==> ds[i].id != id
  {
    if |ds| == 0 then 0
    else if ds[0].id == id then 0
    else 1 + IndexOf(ds[1..], id)
  }

  /** A search through a concatenation finds a match in the first part before
      looking at the second. */
  lemma {:induction false} IndexOfConcat(a: seq<Device>, b: seq<Device>, id: string)
    ensures IndexOf(a + b, id) ==
      if IndexOf(a, id) < |a| then IndexOf(a, id) else |a| + IndexOf(b, id)
  {
    if |a| > 0 {
      assert (a + b)[1..] == a[1..] + b;
      IndexOfConcat(a[1..], b, id);
    } else {
      assert a + b == b;
    }
  }

  /** The same change applied to every device, in order. */
  function Map(ds: seq<Device>, f: Device -> Device): (r: seq<Device>)
    ensures |r| == |ds|
    ensures forall i :: 0 <= i < |ds| ==> r[i] == f(ds[i])
  {
    seq(|ds|, i requires 0 <= i < |ds| => f(ds[i]))
  }

  /** The devices satisfying `p`, in their original order. */
  function Filter(ds: seq<Device>, p: Device -> bool): (r: seq<Device>)
    ensures |r| <= |ds|
    ensures forall d :: d in r <==> d in ds && p(d)
  {
    if |ds| == 0 then []
    else (if p(ds[0]) then [ds[0]] else []) + Filter(ds[1..], p)
  }

  /** Filtering a concatenation filters each part and keeps the parts in
      order: the selection never reorders devices. */
  lemma {:induction false} FilterConcat(a: seq<Device>, b: seq<Device>, p: Device -> bool)
    ensures Filter(a + b, p) == Filter(a, p) + Filter(b, p)
  {
    if |a| == 0 {
      assert a + b == b;
    } else {
      assert (a + b)[1..] == a[1..] + b;
      FilterConcat(a[1..], b, p);
    }
  }

  /** `addDevice` rejects a device whose identifier is already in the room;
      otherwise it appends the device at the end. */
  function AddDevice(r: Room, d: Device): (res: Result<Room>)
    ensures HasId(r.devices, d.id) <==> res.Err?
    ensures res.Err? ==> res.error == DuplicateDevice(d.id)
    ensures res.Ok? ==> res.value.name == r.name
    ensures res.Ok? ==> |res.value.devices| == |r.devices| + 1
    ensures res.Ok? ==> res.value.devices[..|r.devices|] == r.devices && res.value.devices[|r.devices|] == d
    ensures res.Ok? && UniqueIds(r.devices) ==> UniqueIds(res.value.devices)
  {
    if IndexOf(r.devices, d.id) < |r.devices| then Err(DuplicateDevice(d.id))
    else Ok(r.(devices := r.devices + [d]))
  }

  /** `removeDevice` fails for an identifier not in the room; otherwise it
      removes the first device with that identifier and keeps the others in
      order. */
  function RemoveDevice(r: Room, id: string): (res: Result<Room>)
    ensures HasId(r.devices, id) <==> res.Ok?
    ensures res.Err? ==> res.error == DeviceNotFound(id)
    ensures res.Ok? ==> res.value.name == r.name && |res.value.devices| == |r.devices| - 1
    ensures res.Ok? ==>
      (exists k :: 0 <= k < |r.devices| && r.devices[k].id == id &&
         res.value.devices == r.devices[..k] + r.devices[k + 1..])
    ensures res.Ok? && UniqueIds(r.devices) ==>
      UniqueIds(res.value.devices) && !HasId(res.value.devices, id)
  {
    var k := IndexOf(r.devices, id);
    if k == |r.devices| then Err(DeviceNotFound(id))
    else
      var rest := r.devices[..k] + r.devices[k + 1..];
      assert forall i :: 0 <= i < |rest| ==> rest[i] == r.devices[if i < k then i else i + 1];
      Ok(r.(devices := rest))
  }

  /** `findDeviceById` succeeds exactly when some device has the identifier,
      and returns the first such device. */
  function FindDeviceById(r: Room, id: string): (res: Result<Device>)
    ensures HasId(r.devices, id) <==> res.Ok?
    ensures res.Err? ==> res.error == DeviceNotFound(id)
    ensures res.Ok? ==> res.value.id == id && res.value in r.devices
  {
    var k := IndexOf(r.devices, id);
    if k == |r.devices| then Err(DeviceNotFound(id)) else Ok(r.devices[k])
  }

  /** `getDevicesByType`: the devices of one class, in room order. */
  function DevicesByType(r: Room, k: Kind): (res: seq<Device>)
    ensures forall d :: d in res <==> d in r.devices && d.Kind() == k
  {
    Filter(r.devices, (d: Device) => d.Kind() == k)
  }

  /** Every device switched on, in order; identities unchanged. */
  function TurnOnAllDevices(r: Room): (res: Room)
    ensures res.name == r.name && |res.devices| == |r.devices|
    ensures forall i :: 0 <= i < |r.devices| ==> res.devices[i].on && SameDevice(r.devices[i], res.devices[i])
    ensures UniqueIds(r.devices) ==> UniqueIds(res.devices)
    ensures AllValid(r.devices) ==> AllValid(res.devices)
  {
    r.(devices := Map(r.devices, Devices.TurnOn))
  }

  /** Every device switched off, in order; identities unchanged. */
  function TurnOffAllDevices(r: Room): (res: Room)
    ensures res.name == r.name && |res.devices| == |r.devices|
    ensures forall i :: 0 <= i < |r.devices| ==> !res.devices[i].on && SameDevice(r.devices[i], res.devices[i])
    ensures UniqueIds(r.devices) ==> UniqueIds(res.devices)
    ensures AllValid(r.devices) ==> AllValid(res.devices)
  {
    r.(devices := Map(r.devices, Devices.TurnOff))
  }

  /** Adding a device and removing it again gives back the room. */
  lemma AddThenRemove(r: Room, d: Device)
    requires AddDevice(r, d).Ok?
    ensures RemoveDevice(AddDevice(r, d).value, d.id) == Ok(r)
  {
    var ds := r.devices + [d];
    assert IndexOf(ds, d.id) == |r.devices|;
    assert ds[..|r.devices|] + ds[|r.devices| + 1..] == r.devices;
  }

  /** A device just added is found under its identifier. */
  lemma FindAfterAdd(r: Room, d: Device)
    requires AddDevice(r, d).Ok?
    ensures FindDeviceById(AddDevice(r, d).value, d.id) == Ok(d)
  {
    assert IndexOf(r.devices + [d], d.id) == |r.devices|;
  }

  /** Bulk power changes are idempotent. */
  lemma TurnAllIdempotent(r: Room)
    ensures TurnOffAllDevices(TurnOffAllDevices(r)) == TurnOffAllDevices(r)
    ensures TurnOnAllDevices(TurnOnAllDevices(r)) == TurnOnAllDevices(r)
  {
    var off := TurnOffAllDevices(r);
    forall i | 0 <= i < |r.devices|
      ensures TurnOffAllDevices(off).devices[i] == off.devices[i]
    {
      Devices.TurnOffIdempotent(r.devices[i]);
    }
    var on := TurnOnAllDevices(r);
    forall i | 0 <= i < |r.devices|
      ensures TurnOnAllDevices(on).devices[i] == on.devices[i]
    {
      Devices.TurnOnIdempotent(r.devices[i]);
    }
  }
}

=== FILE: smart_device.dfy ===
/** The common device record and the four variants.

    Every device has an identifier, a display name and a power flag; its
    variant-specific fields live in `State`. The Java class of a device is the
    constructor of its state, and the four subset types below play the role of
    the four concrete classes: an operation typed on `Light` can only be given
    a light. */
module SmartDevice {

  datatype State =
    | LightState(brightness: int, color: string, lightMode: string)
    | ThermostatState(current: int, target: int, mode: string, tasks: map<string, string>)
    | TVState(channel: int, volume: int, streaming: bool, app: string)
    | SensorState(motion: bool, sensitivity: int)

  datatype Kind = LightKind | ThermostatKind | SmartTVKind | MotionSensorKind

  datatype Device = Device(id: string, name: string, on: bool, state: State) {

    function Kind(): Kind {
      match state
      case LightState(_, _, _) => LightKind
      case ThermostatState(_, _, _, _) => ThermostatKind
      case TVState(_, _, _, _) => SmartTVKind
      case SensorState(_, _) => MotionSensorKind
    }

    /** The class's simple name, as `getClass().getSimpleName()` reports it. */
    function TypeName(): string {
      KindName(Kind())
    }

    /** The `EnergyConsumer` interface: lights, thermostats and TVs. */
    predicate IsEnergyConsumer() {
      !state.SensorState?
    }
  }

  function KindName(k: Kind): string {
    match k
    case LightKind => "Light"
    case ThermostatKind => "Thermostat"
    case SmartTVKind => "SmartTV"
    case MotionSensorKind => "MotionSensor"
  }

  type Light = d: Device | d.state.LightState?
    witness Device("", "", false, LightState(0, "white", "normal"))

  type Thermostat = d: Device | d.state.ThermostatState?
    witness Device("", "", false, ThermostatState(20, 20, "auto", map[]))

  type SmartTV = d: Device | d.state.TVState?
    witness Device("", "", false, TVState(1, 50, false, "none"))

  type MotionSensor = d: Device | d.state.SensorState?
    witness Device("", "", false, SensorState(false, 5))

  /** The three modes a thermostat accepts. */
  predicate IsThermostatMode(m: string) {
    m == "heat" || m == "cool" || m == "auto"
  }

  /** Every numeric field inside its declared range. */
  predicate Valid(d: Device) {
    match d.state
    case LightState(b, _, _) => 0 <= b <= 100
    case ThermostatState(cur, tgt, m, _) =>
      10 <= cur <= 35 && 10 <= tgt <= 35 && IsThermostatMode(m)
    case TVState(ch, vol, _, _) => 1 <= ch <= 999 && 0 <= vol <= 100
    case SensorState(_, s) => 1 <= s <= 10
  }

  /** `a` and `b` are the same physical device: same identifier, same name,
      same class. No operation of the simulator reassigns any of the three. */
  predicate SameDevice(a: Device, b: Device) {
    a.id == b.id && a.name == b.name && a.Kind() == b.Kind()
  }

  /** The base-class constructor: the device starts switched off and keeps
      exactly the identifier and name it was given. */
  function NewDevice(id: string, name: string, state: State): (d: Device)
    ensures !d.on
    ensures d.id == id && d.name == name
    ensures d.state == state
  {
    Device(id, name, false, state)
  }
}

=== FILE: smart_tv.dfy ===
/** SmartTV: channel, volume and streaming. Channel, volume and streaming
    requests need the TV to be on; a channel outside 1..999 is rejected while
    a volume change is clamped into 0..100. */
module SmartTVs {
  import opened Results
  import opened SmartDevice
  import opened Commands

  function Channel(tv: SmartTV): int {
    tv.state.channel
  }

  function Volume(tv: SmartTV): int {
    tv.state.volume
  }

  function Streaming(tv: SmartTV): bool {
    tv.state.streaming
  }

  function App(tv: SmartTV): string {
    tv.state.app
  }

  /** A new TV: off, channel 1, volume 50, not streaming, app "none". */
  function NewTV(id: string, name: string): (tv: SmartTV)
    ensures !tv.on && tv.id == id && tv.name == name
    ensures Channel(tv) == 1 && Volume(tv) == 50
    ensures !Streaming(tv) && App(tv) == "none"
    ensures Valid(tv)
  {
    NewDevice(id, name, TVState(1, 50, false, "none"))
  }

  function TurnOn(tv: SmartTV): (r: SmartTV)
    ensures r.on && SameDevice(tv, r) && r.state == tv.state
  {
    tv.(on := true)
  }

  /** Switching off also stops streaming; the app name is kept. */
  function TurnOff(tv: SmartTV): (r: SmartTV)
    ensures !r.on && !Streaming(r) && SameDevice(tv, r)
    ensures Channel(r) == Channel(tv) && Volume(r) == Volume(tv) && App(r) == App(tv)
  {
    tv.(on := false, state := tv.state.(streaming := false))
  }

  /** A channel change needs power and a channel in 1..999, and cancels
      streaming without resetting the app name. */
  function ChangeChannel(tv: SmartTV, channel: int): (r: Result<SmartTV>)
    ensures !tv.on ==> r == Err(InvalidDeviceState(ChannelWhileOff))
    ensures tv.on && (channel < 1 || channel > 999) ==> r == Err(InvalidDeviceState(ChannelRange))
    ensures r.Ok? <==> tv.on && 1 <= channel <= 999
    ensures r.Ok? ==> SameDevice(tv, r.value) && r.value.on
    ensures r.Ok? ==> Channel(r.value) == channel && !Streaming(r.value)
    ensures r.Ok? ==> Volume(r.value) == Volume(tv) && App(r.value) == App(tv)
    ensures r.Ok? && Valid(tv) ==> Valid(r.value)
  {
    if !tv.on then Err(InvalidDeviceState(ChannelWhileOff))
    else if channel < 1 || channel > 999 then Err(InvalidDeviceState(ChannelRange))
    else Ok(tv.(state := tv.state.(channel := channel, streaming := false)))
  }

  function Clamp(v: int, lo: int, hi: int): int
    requires lo <= hi
  {
    if v < lo then lo else if v > hi then hi else v
  }

  /** A volume change needs power; the new volume is the old one plus the
      change, clamped into 0..100 (the source's overflow is corrected here,
      see `AdjustVolumeAsWritten`). */
  function AdjustVolume(tv: SmartTV, change: int): (r: Result<SmartTV>)
    ensures !tv.on <==> r.Err?
    ensures r.Err? ==> r.error == InvalidDeviceState(VolumeWhileOff)
    ensures r.Ok? ==> SameDevice(tv, r.value) && r.value.on
    ensures r.Ok? ==> 0 <= Volume(r.value) <= 100
    ensures r.Ok? && 0 <= Volume(tv) + change <= 100 ==> Volume(r.value) == Volume(tv) + change
    ensures r.Ok? && Volume(tv) + change < 0 ==> Volume(r.value) == 0
    ensures r.Ok? && Volume(tv) + change > 100 ==> Volume(r.value) == 100
    ensures r.Ok? ==> Channel(r.value) == Channel(tv) && Streaming(r.value) == Streaming(tv)
    ensures r.Ok? ==> App(r.value) == App(tv)
    ensures r.Ok? && Valid(tv) ==> Valid(r.value)
  {
    if !tv.on then Err(InvalidDeviceState(VolumeWhileOff))
    else Ok(tv.(state := tv.state.(volume := Clamp(Volume(tv) + change, 0, 100))))
  }

  /** Java's `int`: the values a 32-bit two's-complement integer can hold. */
  predicate IsInt32(x: int) {
    -0x8000_0000 <= x < 0x8000_0000
  }

  /** Java's `int` addition, which wraps around modulo 2^32. */
  function AddInt32(a: int, b: int): (s: int)
    requires IsInt32(a) && IsInt32(b)
    ensures IsInt32(s)
    ensures IsInt32(a + b) ==> s == a + b
  {
    (a + b + 0x8000_0000) % 0x1_0000_0000 - 0x8000_0000
  }

  /** `adjustVolume` as written: `volume += change` is a 32-bit addition, so a
      large enough change wraps around before the clamp sees it. */
  function AdjustVolumeAsWritten(tv: SmartTV, change: int): (r: Result<SmartTV>)
    requires IsInt32(Volume(tv)) && IsInt32(change)
    ensures !tv.on <==> r.Err?
    ensures r.Ok? ==> 0 <= Volume(r.value) <= 100
    ensures IsInt32(Volume(tv) + change) ==> r == AdjustVolume(tv, change)
  {
    if !tv.on then Err(InvalidDeviceState(VolumeWhileOff))
    else Ok(tv.(state := tv.state.(volume := Clamp(AddInt32(Volume(tv), change), 0, 100))))
  }

  /** The overflow: at volume 50, raising by `Integer.MAX_VALUE` silences the
      TV instead of turning it up to the maximum. */
  lemma AdjustVolumeOverflow(tv: SmartTV)
    requires tv.on && Volume(tv) == 50
    ensures AdjustVolumeAsWritten(tv, 0x7FFF_FFFF).value.state.volume == 0
    ensures AdjustVolume(tv, 0x7FFF_FFFF).value.state.volume == 100
  {
    assert AddInt32(50, 0x7FFF_FFFF) == -0x7FFF_FFCF;
  }

  /** Streaming needs power; it records the app. */
  function StartStreaming(tv: SmartTV, app: string): (r: Result<SmartTV>)
    ensures !tv.on <==> r.Err?
    ensures r.Err? ==> r.error == InvalidDeviceState(StreamWhileOff)
    ensures r.Ok? ==> SameDevice(tv, r.value) && r.value.on && Streaming(r.value) && App(r.value) == app
    ensures r.Ok? ==> Channel(r.value) == Channel(tv) && Volume(r.value) == Volume(tv)
    ensures r.Ok? && Valid(tv) ==> Valid(r.value)
  {
    if !tv.on then Err(InvalidDeviceState(StreamWhileOff))
    else Ok(tv.(state := tv.state.(streaming := true, app := app)))
  }

  /** Stopping needs no power; it resets the app to "none". */
  function StopStreaming(tv: SmartTV): (r: SmartTV)
    ensures SameDevice(tv, r) && r.on == tv.on
    ensures !Streaming(r) && App(r) == "none"
    ensures Channel(r) == Channel(tv) && Volume(r) == Volume(tv)
    ensures Valid(tv) ==> Valid(r)
  {
    tv.(state := tv.state.(streaming := false, app := "none"))
  }

  /** Streaming and then stopping leaves the TV as stopping alone would:
      the app it streamed leaves no trace. */
  lemma StopAfterStart(tv: SmartTV, app: string)
    requires tv.on
    ensures StartStreaming(tv, app).Ok?
    ensures StopStreaming(StartStreaming(tv, app).value) == StopStreaming(tv)
  {
  }

  /** The TV's `setMode` only reports the request. */
  function SetMode(tv: SmartTV, mode: string): (r: SmartTV)
    ensures r == tv
  {
    tv
  }

  /** Power draw in tenths of a watt: nothing while off, 120 W streaming,
      80 W otherwise. */
  function Energy(tv: SmartTV): (e: int)
    ensures !tv.on ==> e == 0
    ensures tv.on && Streaming(tv) ==> e == 1200
    ensures tv.on && !Streaming(tv) ==> e == 800
  {
    if !tv.on then 0 else if Streaming(tv) then 1200 else 800
  }

  /** The six verbs the TV recognises. */
  predicate IsKnown(c: Command) {
    HasVerb(c, "on") || HasVerb(c, "off") || HasVerb(c, "channel") ||
    HasVerb(c, "volumeup") || HasVerb(c, "volumedown") || HasVerb(c, "stream")
  }

  /** The TV's vocabulary: "on", "off", "channel N", "volumeup", "volumedown"
      and "stream APP", the first word matched without regard to case. */
  function ExecuteCommand(tv: SmartTV, c: Command): (r: Result<SmartTV>)
    ensures HasVerb(c, "on") ==> r == Ok(TurnOn(tv))
    ensures HasVerb(c, "off") ==> r == Ok(TurnOff(tv))
    ensures HasVerb(c, "channel") && c.arg.None? ==> r == Ok(tv)
    ensures HasVerb(c, "channel") && c.arg.Some? && c.arg.value.number.None? ==>
      r == Err(MalformedNumber(c.arg.value.text))
    ensures HasVerb(c, "channel") && c.arg.Some? && c.arg.value.number.Some? ==>
      r == ChangeChannel(tv, c.arg.value.number.value)
    ensures HasVerb(c, "volumeup") ==> r == AdjustVolume(tv, 10)
    ensures HasVerb(c, "volumedown") ==> r == AdjustVolume(tv, -10)
    ensures HasVerb(c, "stream") && c.arg.None? ==> r == Ok(tv)
    ensures HasVerb(c, "stream") && c.arg.Some? ==> r == StartStreaming(tv, c.arg.value.text)
    ensures !IsKnown(c) ==> r == Ok(tv)
    ensures r.Ok? ==> SameDevice(tv, r.value) && (Valid(tv) ==> Valid(r.value))
  {
    if HasVerb(c, "on") then Ok(TurnOn(tv))
    else if HasVerb(c, "off") then Ok(TurnOff(tv))
    else if HasVerb(c, "channel") then
      match c.arg
      case None => Ok(tv)
      case Some(a) =>
        match a.number
        case None => Err(MalformedNumber(a.text))
        case Some(n) => ChangeChannel(tv, n)
    else if HasVerb(c, "volumeup") then AdjustVolume(tv, 10)
    else if HasVerb(c, "volumedown") then AdjustVolume(tv, -10)
    else if HasVerb(c, "stream") then
      match c.arg
      case None => Ok(tv)
      case Some(a) => StartStreaming(tv, a.text)
    else Ok(tv)
  }

  /** "volumeup" followed by "volumedown" restores any volume in 10..90. */
  lemma VolumeUpDownRoundTrip(tv: SmartTV)
    requires tv.on && 10 <= Volume(tv) <= 90
    ensures AdjustVolume(AdjustVolume(tv, 10).value, -10) == Ok(tv)
    ensures AdjustVolume(AdjustVolume(tv, -10).value, 10) == Ok(tv)
  {
  }
}

=== FILE: text.dfy ===
/** The little string handling the simulator does: `toLowerCase` and
    `equalsIgnoreCase`, restricted to ASCII letters. */
module Text {

  function LowerChar(c: char): char {
    if 'A' <= c <= 'Z' then (c as int + 32) as char else c
  }

  /** `String.toLowerCase` on ASCII text. */
  function Lower(s: string): (r: string)
    ensures |r| == |s|
    ensures forall i :: 0 <= i < |s| ==> r[i] == LowerChar(s[i])
  {
    if |s| == 0 then "" else [LowerChar(s[0])] + Lower(s[1..])
  }

  /** `String.equalsIgnoreCase` on ASCII text. */
  predicate EqualsIgnoreCase(a: string, b: string) {
    Lower(a) == Lower(b)
  }

  /** Lower-casing twice is lower-casing once. */
  lemma LowerIdempotent(s: string)
    ensures Lower(Lower(s)) == Lower(s)
  {
  }
}

=== FILE: thermostat.dfy ===
/** Thermostat: a target temperature in 10..35 and a current temperature that
    follows it one degree per request while the thermostat is on; a mode among
    heat, cool and auto; and a store of scheduled-task labels keyed by time. */
module Thermostats {
  import opened Results
  import opened SmartDevice
  import opened Commands

  function Current(t: Thermostat): int {
    t.state.current
  }

  function Target(t: Thermostat): int {
    t.state.target
  }

  function Mode(t: Thermostat): string {
    t.state.mode
  }

  function Distance(a: int, b: int): nat {
    if a <= b then b - a else a - b
  }

  /** A new thermostat: off, in auto mode, with no tasks, already at its
      target (the starting temperature is not range-checked). */
  function NewThermostat(id: string, name: string, initialTemp: int): (t: Thermostat)
    ensures !t.on && t.id == id && t.name == name
    ensures Current(t) == initialTemp && Target(t) == initialTemp
    ensures Mode(t) == "auto" && t.state.tasks == map[]
    ensures Valid(t) <==> 10 <= initialTemp <= 35
  {
    NewDevice(id, name, ThermostatState(initialTemp, initialTemp, "auto", map[]))
  }

  function TurnOn(t: Thermostat): (r: Thermostat)
    ensures r.on && SameDevice(t, r) && r.state == t.state
  {
    t.(on := true)
  }

  function TurnOff(t: Thermostat): (r: Thermostat)
    ensures !r.on && SameDevice(t, r) && r.state == t.state
  {
    t.(on := false)
  }

  /** One heating or cooling step: while on, the current temperature moves one
      degree toward the target and never past it; while off nothing moves. */
  function Adjust(t: Thermostat): (r: Thermostat)
    ensures SameDevice(t, r) && r.on == t.on
    ensures Target(r) == Target(t) && Mode(r) == Mode(t) && r.state.tasks == t.state.tasks
    ensures !t.on ==> Current(r) == Current(t)
    ensures t.on && Current(t) != Target(t) ==>
      Distance(Current(r), Current(t)) == 1 &&
      Distance(Current(r), Target(t)) == Distance(Current(t), Target(t)) - 1
    ensures Current(t) == Target(t) ==> r == t
    ensures Valid(t) ==> Valid(r)
  {
    if !t.on then t
    else if Current(t) < Target(t) then t.(state := t.state.(current := Current(t) + 1))
    else if Current(t) > Target(t) then t.(state := t.state.(current := Current(t) - 1))
    else t
  }

  /** `setTemperature` rejects a target outside 10..35; otherwise it stores the
      target, on or off, and takes one adjustment step. */
  function SetTemperature(t: Thermostat, temp: int): (r: Result<Thermostat>)
    ensures (temp < 10 || temp > 35) <==> r.Err?
    ensures r.Err? ==> r.error == InvalidDeviceState(TemperatureRange)
    ensures r.Ok? ==> SameDevice(t, r.value) && r.value.on == t.on && Target(r.value) == temp
    ensures r.Ok? ==> Mode(r.value) == Mode(t) && r.value.state.tasks == t.state.tasks
    ensures r.Ok? && !t.on ==> Current(r.value) == Current(t)
    ensures r.Ok? && t.on && Current(t) != temp ==>
      Distance(Current(r.value), temp) == Distance(Current(t), temp) - 1 &&
      Distance(Current(r.value), Current(t)) == 1
    ensures r.Ok? && Current(t) == temp ==> Current(r.value) == temp
    ensures r.Ok? && Valid(t) ==> Valid(r.value)
  {
    if temp < 10 || temp > 35 then
      Err(InvalidDeviceState(TemperatureRange))
    else
      Ok(Adjust(t.(state := t.state.(target := temp))))
  }

  /** `setMode` accepts exactly "heat", "cool" and "auto", compared with case. */
  function SetMode(t: Thermostat, m: string): (r: Result<Thermostat>)
    ensures r.Ok? <==> IsThermostatMode(m)
    ensures r.Err? ==> r.error == InvalidDeviceState(UnknownMode)
    ensures r.Ok? ==> SameDevice(t, r.value) && r.value.on == t.on && Mode(r.value) == m
    ensures r.Ok? ==> Current(r.value) == Current(t) && Target(r.value) == Target(t)
    ensures r.Ok? ==> r.value.state.tasks == t.state.tasks
    ensures r.Ok? && Valid(t) ==> Valid(r.value)
  {
    if IsThermostatMode(m) then Ok(t.(state := t.state.(mode := m)))
    else Err(InvalidDeviceState(UnknownMode))
  }

  /** Power draw in tenths of a watt: nothing while off, 50 W idle at target,
      150 W heating and 120 W in every other mode while away from target. */
  function Energy(t: Thermostat): (e: int)
    ensures !t.on ==> e == 0
    ensures t.on && Current(t) == Target(t) ==> e == 500
    ensures t.on && Current(t) != Target(t) && Mode(t) == "heat" ==> e == 1500
    ensures t.on && Current(t) != Target(t) && Mode(t) != "heat" ==> e == 1200
  {
    if !t.on then 0
    else if Current(t) != Target(t) then (if Mode(t) == "heat" then 1500 else 1200)
    else 500
  }

  /** Scheduling stores the action label under its time, replacing any label
      already stored there; nothing else about the thermostat changes. */
  function ScheduleTask(t: Thermostat, time: string, action: string): (r: Thermostat)
    ensures SameDevice(t, r) && r.on == t.on
    ensures time in r.state.tasks && r.state.tasks[time] == action
    ensures r.state.tasks.Keys == t.state.tasks.Keys + {time}
    ensures forall k :: k in t.state.tasks && k != time ==> r.state.tasks[k] == t.state.tasks[k]
    ensures Current(r) == Current(t) && Target(r) == Target(t) && Mode(r) == Mode(t)
  {
    t.(state := t.state.(tasks := t.state.tasks[time := action]))
  }

  /** Cancelling drops the label stored under the key, if there is one. */
  function CancelScheduledTask(t: Thermostat, key: string): (r: Thermostat)
    ensures SameDevice(t, r) && r.on == t.on
    ensures r.state.tasks.Keys == t.state.tasks.Keys - {key}
    ensures forall k :: k in r.state.tasks ==> r.state.tasks[k] == t.state.tasks[k]
    ensures key !in t.state.tasks ==> r == t
    ensures Current(r) == Current(t) && Target(r) == Target(t) && Mode(r) == Mode(t)
  {
    t.(state := t.state.(tasks := t.state.tasks - {key}))
  }

  /** Cancelling a task just scheduled at a free time restores the schedule. */
  lemma ScheduleThenCancel(t: Thermostat, time: string, action: string)
    requires time !in t.state.tasks
    ensures CancelScheduledTask(ScheduleTask(t, time, action), time) == t
  {
    var tasks := CancelScheduledTask(ScheduleTask(t, time, action), time).state.tasks;
    assert tasks.Keys == t.state.tasks.Keys;
    assert tasks == t.state.tasks;
  }

  /** The thermostat's vocabulary: "on", "off", "settemp N" and "setmode M",
      the first word matched without regard to case. A verb missing its
      argument does nothing; "settemp" with a non-number fails in parsing. */
  function ExecuteCommand(t: Thermostat, c: Command): (r: Result<Thermostat>)
    ensures HasVerb(c, "on") ==> r == Ok(TurnOn(t))
    ensures HasVerb(c, "off") ==> r == Ok(TurnOff(t))
    ensures HasVerb(c, "settemp") && c.arg.None? ==> r == Ok(t)
    ensures HasVerb(c, "settemp") && c.arg.Some? && c.arg.value.number.None? ==>
      r == Err(MalformedNumber(c.arg.value.text))
    ensures HasVerb(c, "settemp") && c.arg.Some? && c.arg.value.number.Some? ==>
      r == SetTemperature(t, c.arg.value.number.value)
    ensures HasVerb(c, "setmode") && c.arg.None? ==> r == Ok(t)
    ensures HasVerb(c, "setmode") && c.arg.Some? ==> r == SetMode(t, c.arg.value.text)
    ensures !HasVerb(c, "on") && !HasVerb(c, "off") && !HasVerb(c, "settemp") && !HasVerb(c, "setmode") ==>
      r == Ok(t)
    ensures r.Ok? ==> SameDevice(t, r.value) && (Valid(t) ==> Valid(r.value))
  {
    if HasVerb(c, "on") then Ok(TurnOn(t))
    else if HasVerb(c, "off") then Ok(TurnOff(t))
    else if HasVerb(c, "settemp") then
      match c.arg
      case None => Ok(t)
      case Some(a) =>
        match a.number
        case None => Err(MalformedNumber(a.text))
        case Some(n) => SetTemperature(t, n)
    else if HasVerb(c, "setmode") then
      match c.arg
      case None => Ok(t)
      case Some(a) => SetMode(t, a.text)
    else Ok(t)
  }

  /** `n` successive requests for the same target temperature. */
  function Repeat(t: Thermostat, temp: int, n: nat): Thermostat
    requires 10 <= temp <= 35
    decreases n
  {
    if n == 0 then t else Repeat(SetTemperature(t, temp).value, temp, n - 1)
  }

  /** A thermostat that is on reaches any valid target after exactly as many
      requests as it is degrees away, and is never at it before. */
  lemma {:induction false} RepeatReachesTarget(t: Thermostat, temp: int, n: nat)
    requires 10 <= temp <= 35 && t.on
    ensures n <= Distance(Current(t), temp) ==>
      Distance(Current(Repeat(t, temp, n)), temp) == Distance(Current(t), temp) - n
    ensures n >= Distance(Current(t), temp) ==> Current(Repeat(t, temp, n)) == temp
    ensures Target(Repeat(t, temp, n)) == temp || n == 0
    ensures Repeat(t, temp, n).on
    decreases n
  {
    if n > 0 {
      var t1 := SetTemperature(t, temp).value;
      RepeatReachesTarget(t1, temp, n - 1);
    }
  }
}
